=== FILE: README.md ===
# Idena transaction codec — a Dafny model

This project models `idena/script.js`, the small JavaScript codec that builds,
signs, serializes and parses Idena blockchain transactions. It has three parts.

- **The hex and byte normalizer.**
  - `toHexString`, `isHexPrefixed`, `stripHexPrefix` and `padToEven` handle hex strings.
  - `hexToUint8Array` decodes hex, including the `parseInt(…, 16)` it calls on every two-character chunk.
  - `intToHex`, `intToBuffer` and `bufferToInt` convert numbers to and from bytes.
  - `toBuffer` turns a dynamically typed value into bytes.
  - `exports.toHex` returns the normalized bytes as `0x` hex.
- **The transaction model.**
  - The `Transaction` constructor applies the field defaults.
  - `_createProtoTxData` builds the signing pre-image. It always sets nonce, epoch and type. It sets `to`, `amount`, `maxFee`, `tips` and `payload` only when they are truthy.
- **The sign / encode / decode structure.**
  - `sign`, `toBytes`, `toHex`, `fromBytes` and `fromHex`.
  - `exports.privateKeyToAddress`.

Modules, one per component:

| file | module | contents |
|---|---|---|
| `results.dfy` | `Results` | `Result`/`Option` and the errors the code throws |
| `hex.dfy` | `Hex` | hex digits, `toHexString`, prefix handling, `Number#toString(16)`, Node's `Buffer.from(s, 'hex')`, big-endian value |
| `hex_parse.dfy` | `HexParse` | `parseInt(s, 16)`, `hexToUint8Array` as written (function and loop), the corrected decoders `HexToBytes` (strict) and `HexToBytesPadded` (pads an odd body) |
| `numbers.dfy` | `Numbers` | `intToHex`, `intToBuffer`, `bufferToInt`, minimal big-endian bytes |
| `values.dfy` | `Values` | the JavaScript values `toBuffer` accepts, truthiness, UTF-8, `toBuffer`, `exports.toHex` |
| `messages.dfy` | `Messages` | the `ProtoTransaction` and `Data` messages, and the crypto and protobuf primitives as parameters |
| `transaction.dfy` | `Transactions` | the `Transaction` fields, the constructor, `_createProtoTxData` |
| `codec.dfy` | `Codec` | `sign`, `toBytes`, `toHex`, `fromBytes`, `fromHex` and their round trips |
| `address.dfy` | `Address` | `privateKeyToAddress` |

Modelling choices:

- **Values and types.**
  - A byte is `int` in `0..255`.
  - A string is a sequence of Unicode scalar values. JavaScript counts string length in UTF-16 code units. The two counts agree for every character in the Basic Multilingual Plane, which includes every hex digit. "## Left out" lists where they differ.
  - A JavaScript value reaching `toBuffer` is the datatype `Values.Value`.
  - Thrown exceptions are `Err` values of `Results.Error`.
- **Mutation.** The class mutates `this` in `sign` and `fromBytes`. Here `Sign` returns the updated transaction, and `FromProto` returns a new one. Both are correct models because `fromBytes` overwrites every field.
- **External libraries.** keccak-256, secp256k1 and the protobuf serializer come in as the `Messages.Primitives` record of functions. A function that throws returns `None`.
  - `Messages.WellBehaved` states only the sizes the code relies on: a 32-byte digest, a 65-byte uncompressed public key, a 64-byte signature and a recovery id below 4.
  - `Messages.FaithfulFraming` states that `deserializeBinary` reads back what `serializeBinary` wrote.
  - Lemmas that need these facts take them as `requires`.
- **Proto3 semantics.** In `Messages.Data` an empty byte string stands for an absent field.
  - The jspb getter of an absent bytes field returns `""`, which is falsy.
  - A present field is returned as a `Uint8Array`. `Codec.BytesField` models this.

Where the code differs from the behaviour one might expect from its description, the model follows the code:

- **`toBuffer` only hex-decodes strings that start with the exact `0x`.** Any other string, including bare hex and `0X…`, is UTF-8 encoded (`Values.Utf8Encode`).
- **`hexToUint8Array` does not pad an odd-length body.** It allocates `str.length / 2` bytes, so the last digit is parsed but never stored. Only `toBuffer` pads. The model handles odd lengths exactly instead of excluding them.
- **A chunk is NaN in more cases than "the first character is not a hex digit".**
  - `parseInt(chunk, 16)` skips leading JavaScript whitespace, accepts one sign and drops a `0x`/`0X` radix prefix. It then reads the longest run of hex digits.
  - So a chunk `"0x"` is NaN although `'0'` is a digit.
  - `" 1"`, `"+1"` and `"-1"` are numbers.
  - `"1g"` is 1.
  - See `HexParse.ParseIntHex` and the lemmas after it.
- **A negative number throws `Invalid integer …`** (`NegativeInteger`), not an invalid-type error.
- **Integers are unbounded.** No overflow error exists in the code.
- **The private key of `sign` and `privateKeyToAddress` is a hex string.** It is not raw bytes.
- **`sign`, `fromHex` and `privateKeyToAddress` call `hexToUint8Array` as written.** So they share its leniency.
  - A 65-digit key is read as its first 64 digits (`Codec.SignIgnoresTrailingKeyDigit`, `Address.AddressIgnoresTrailingKeyDigit`).
  - `fromHex(toHex(tx) + "0")` decodes `tx` (`Codec.FromHexIgnoresTrailingDigit`).
  - A key ending in "ag" is read with last byte 0x0a.
  - They throw 'Invalid hexString' only when a chunk parses to NaN.

## Model

| member | source | states |
|---|---|---|
| Hex.NatToHex | idena/script.js:36 | `toString(16)` gives non-empty lower-case digits with no leading zero, whose value is n; it is "0" exactly for 0 |
| Hex.NatToHexOfValue | idena/script.js:36 | every lower-case digit string without a leading zero is `toString(16)` of its own value, so printing and reading are inverse |
| Hex.ByteToHex | idena/script.js:27 | `` `0${b.toString(16)}`.slice(-2) `` is exactly two lower-case digits, high nibble then low nibble, whose value is b |
| Hex.HexBody | idena/script.js:26-28 | the joined per-byte digits are two lower-case hex digits per byte |
| Hex.HexBodyAt | idena/script.js:26-28 | byte i of the array is written as digits 2i and 2i+1 of the body |
| Hex.ToHexString | idena/script.js:23-30 | the result starts with "0x" iff withPrefix, has length 2·len(bytes) (+2 with the prefix), and its body is lower-case hex |
| Hex.IsHexPrefixed | idena/script.js:12-14 | a prefixed string starts with exactly "0x", so its second character is not a hex digit and no bare hex string counts as prefixed |
| Hex.StripHexPrefix | idena/script.js:16-21 | with the exact prefix "0x", the prefix followed by the result is the input; without it, the input is returned unchanged |
| Hex.PadToEven | idena/script.js:40-42 | the result has even length; an even-length input is returned unchanged and an odd-length one gets exactly one leading '0' |
| Hex.PadToEvenKeepsValue | idena/script.js:40-42 | padding to even length with a leading '0' keeps the digits' value |
| Hex.NodeHexDecode | idena/script.js:53 | `Buffer.from(s, 'hex')` yields at most len(s)/2 bytes, whatever s holds |
| Hex.DecodeLength | idena/script.js:53 | an even-length string of hex digits decodes in full, to exactly len(s)/2 bytes |
| Hex.DecodedAt | idena/script.js:53 | every decoded byte i comes from two hex digits at 2i and 2i+1 and is their value |
| Hex.DecodeHexBody | idena/script.js:23-30 | decoding the digits toHexString writes gives the bytes back |
| Hex.HexBodyOfDecode | idena/script.js:53 | re-encoding the bytes decoded from even-length lower-case hex gives the hex back |
| Hex.HexValueOfHexBody | idena/script.js:48 | the hex digits of a byte sequence denote its big-endian value |
| Hex.HexValueOfDecode | idena/script.js:53 | the bytes decoded from even-length hex of either case denote the number the hex denotes |
| HexParse.ParseIntHexOfDigits | idena/script.js:87 | `parseInt(s, 16)` of a non-empty run of hex digits is their value |
| HexParse.ParseIntHex | idena/script.js:87-88 | `parseInt(s, 16)`: a string whose first character is neither whitespace, a sign nor a hex digit is NaN |
| HexParse.ParseIntHexRadixPrefixAlone | idena/script.js:87-88 | the chunk "0x" (or "0X") is NaN, because parseInt drops it as a radix prefix |
| HexParse.ParseIntHexOneDigitThenJunk | idena/script.js:87 | a digit followed by a non-digit parses as that one digit |
| HexParse.ParseIntHexSignedDigit | idena/script.js:87 | a sign followed by a digit parses as the signed digit |
| HexParse.ToUint8 | idena/script.js:91 | a store into the Uint8Array keeps a byte unchanged and reduces any integer modulo 256 |
| HexParse.ParseChunks | idena/script.js:84-92 | on success the array has exactly len(str)/2 bytes; the only failure is 'Invalid hexString' |
| HexParse.ParseChunksFailsIffNaNChunk | idena/script.js:86-90 | the decode throws if and only if some chunk `str.substr(2k, 2)` parses to NaN |
| HexParse.ParseChunksValues | idena/script.js:86-92 | on success byte k is chunk k's parsed value stored modulo 256 |
| HexParse.ChunkLoop | idena/script.js:84-94 | the index loop (step 2, allocation of `length / 2`, NaN check, store) returns what the chunk-by-chunk definition returns |
| HexParse.HexToBytesAsWritten | idena/script.js:81-95 | hexToUint8Array as written returns half the body's length in bytes, rounded down, and its only failure is 'Invalid hexString' |
| HexParse.HexToUint8Array | idena/script.js:81-95 | hexToUint8Array as written: prefix stripped, then the loop; on success len(body)/2 bytes |
| HexParse.HexToBytes | idena/script.js:81-95 | the strict corrected decoder succeeds iff the body after "0x" has even length and only hex digits, returns len(body)/2 bytes, and otherwise fails with 'Invalid hexString' |
| HexParse.HexToBytesMeaning | idena/script.js:81-95 | each decoded byte is the value of its digit pair, and the bytes read big-endian are the number the hex denotes |
| HexParse.HexRoundTrip | idena/script.js:81-95 | decoding toHexString(b, p) gives b, with or without the prefix |
| HexParse.AsWrittenAgreesOnValidHex | idena/script.js:81-95 | wherever the strict decoder succeeds, hexToUint8Array as written returns the same bytes |
| HexParse.CanonicalHexIsToHexString | idena/script.js:23-30 | a "0x" string of lower-case digits that the strict decoder reads as b is toHexString(b, true) |
| HexParse.NonHexChunkRejected | idena/script.js:87-90 | "0xzz" throws 'Invalid hexString' in both decoders |
| HexParse.PartialChunkAccepted | idena/script.js:87-91 | as written, "0x" + digit + non-digit decodes to the single digit's value; the strict decoder rejects it |
| HexParse.SignedChunkAccepted | idena/script.js:87-91 | as written, "0x-" + digit decodes to 256 − digit; the strict decoder rejects it |
| HexParse.TrailingDigitIgnored | idena/script.js:84-91 | as written, valid hex followed by one more hex digit decodes to the bytes of the valid hex alone |
| HexParse.OddLengthTruncated | idena/script.js:84-91 | as written, an odd-length hex body decodes without its last digit; the strict decoder rejects it |
| HexParse.HexToBytesPadded | idena/script.js:81-95 | the padding corrected decoder succeeds iff the body after "0x" has only hex digits, returns ⌈len(body)/2⌉ bytes, and otherwise fails with 'Invalid hexString' |
| HexParse.PaddedValue | idena/script.js:81-95 | the padding decoder's bytes read big-endian are the number the whole body denotes, so no digit is lost |
| HexParse.PaddedAgreesOnEvenHex | idena/script.js:81-95 | on an even-length body the padding decoder is the strict one, and on even-length hex it returns what hexToUint8Array as written returns |
| HexParse.PaddedOddBody | idena/script.js:84-91 | on an odd-length hex body the padding decoder reads "0" + body, and hexToUint8Array as written returns one byte fewer |
| Numbers.IntToHex | idena/script.js:32-38 | intToHex throws iff the integer is negative, and otherwise returns an even-length, non-empty lower-case hex string |
| Numbers.IntToHexDenotes | idena/script.js:36-37 | the padded digits still denote n |
| Numbers.BytesToNat | idena/script.js:44-49 | bufferToInt is 0 for empty bytes and the big-endian value otherwise |
| Numbers.IntToBuffer | idena/script.js:51-54 | intToBuffer throws iff the integer is negative, and otherwise returns at least one byte |
| Numbers.IntToBufferDenotes | idena/script.js:51-54 | intToBuffer(n) denotes n; it is minimal (first byte non-zero) for n > 0, and [0] for n = 0 |
| Numbers.IntToBufferOfValue | idena/script.js:44-54 | a non-empty minimal byte sequence is intToBuffer of its bufferToInt, so the two are inverse on positive numbers |
| Numbers.MinimalIsUnique | idena/script.js:51-54 | two minimal byte sequences with the same value are equal |
| Values.Truthy | idena/script.js:103-111 | a value is falsy exactly when it is false, 0, "", null or undefined |
| Values.Utf8Char | idena/script.js:62 | one scalar value takes one to four UTF-8 bytes, one exactly for ASCII, with continuation bytes in 0x80..0xBF |
| Values.Utf8Encode | idena/script.js:62 | `Buffer.from(string)` writes one to four bytes per character |
| Values.Utf8EncodeAppend | idena/script.js:62 | `Buffer.from(string)` encodes a concatenation piecewise |
| Values.Utf8EncodeAscii | idena/script.js:62 | an ASCII string encodes to its own code points |
| Values.ToBuffer | idena/script.js:56-79 | toBuffer throws exactly on booleans, other objects and negative numbers; Buffers and Uint8Arrays keep their bytes; null, undefined and 0 give no bytes |
| Values.NumberRoundTrip | idena/script.js:64-69 | toBuffer of a non-negative number is minimal big-endian bytes that bufferToInt reads back as the number |
| Values.MinimalBytesRoundTrip | idena/script.js:64-69 | every minimal byte sequence is toBuffer of its own bufferToInt |
| Values.HexStringToBuffer | idena/script.js:59-60 | a "0x" hex string gives ⌈digits/2⌉ bytes whose big-endian value is the hex's value; lower-case digits are re-encoded as the padded digits |
| Values.OneByteExample | idena/script.js:64-69 | toBuffer(255) is [0xff] |
| Values.TwoByteExample | idena/script.js:64-69 | toBuffer(256) is [0x01, 0x00] |
| Values.OddHexExample | idena/script.js:59-60 | toBuffer("0xabc") is [0x0a, 0xbc] and toBuffer("0x") is empty |
| Values.PaddedIsToBuffer | idena/script.js:59-60 | on a "0x" string of hex digits the padding decoder returns exactly what toBuffer returns |
| Values.PaddedOddExample | idena/script.js:59-60 | the padding decoder reads "0xabc" as [0x0a, 0xbc] |
| Values.ToHexExport | idena/script.js:96-98 | exports.toHex is a "0x" string of even length, and fails exactly when toBuffer does |
| Values.ToHexExportRoundTrip | idena/script.js:96-98 | feeding exports.toHex's output back to toBuffer gives the same bytes |
| Values.PrefixedHexBuffer | idena/script.js:59-60 | toBuffer of toHexString(b, true) is b |
| Transactions.NewTransaction | idena/script.js:102-112 | the constructor keeps `to` as given and every other truthy argument unchanged. An omitted nonce, epoch or type becomes 0; a falsy amount, maxFee or tips becomes 0, a falsy payload "0x" and a falsy signature null. A field is truthy exactly when its argument is, and the payload default "0x" normalizes to no bytes |
| Transactions.ConstructorDefaultsInvisible | idena/script.js:102-112 | the Data built from a constructed transaction equals the Data built from the raw arguments |
| Transactions.ZeroAmountIsOmitted | idena/script.js:107 | a transaction with amount 0 builds the same Data as one with the amount omitted |
| Transactions.FieldBytes | idena/script.js:185-200 | one optional field is rejected exactly when toBuffer rejects a truthy value; a falsy value gives no bytes; the truthiness test differs from plain toBuffer only on `false` |
| Transactions.CreateData | idena/script.js:181-203 | nonce, epoch and type are copied; each falsy optional field is absent (empty) |
| Transactions.CreateDataRejects | idena/script.js:181-203 | the builder throws iff one of to, amount, maxFee, tips, payload is rejected, with the error of the first such field in that order |
| Transactions.DataIgnoresSignature | idena/script.js:181-203 | the pre-image does not depend on the signature |
| Transactions.NumericFieldStored | idena/script.js:189-197 | an amount, maxFee or tips that is a number is stored as minimal big-endian bytes that bufferToInt reads back as the number |
| Transactions.FalsyFieldsAreOmitted | idena/script.js:189-200 | replacing falsy amount, maxFee, tips or payload values by other falsy values leaves the Data unchanged |
| Codec.Sign | idena/script.js:151-166 | sign changes only the signature, to a Buffer. It succeeds iff the Data builds, hexToUint8Array as written accepts the key, and ecdsaSign accepts the digest and key bytes. The errors come in order: the builder's error, then 'Invalid hexString' when a key chunk is NaN, then the invalid-key error from secp256k1 |
| Codec.SignatureShape | idena/script.js:158-163 | with well-behaved primitives the signature is 65 bytes: ecdsaSign's 64 bytes, over keccak-256 of the serialized Data and the key as hexToUint8Array reads it, then the recovery id |
| Codec.SignWithValidKey | idena/script.js:158-161 | a key of even length made only of hex digits is signed with the bytes its digit pairs spell |
| Codec.SignIgnoresTrailingKeyDigit | idena/script.js:158-161 | a key with one hex digit more than a valid key signs exactly as the valid key does |
| Codec.SignIgnoresSignature | idena/script.js:151-166 | signing does not depend on the signature already present |
| Codec.ResignIsIdempotent | idena/script.js:151-166 | signing a signed transaction again with the same key gives the same transaction |
| Codec.SameDataSameSignature | idena/script.js:152-161 | transactions with the same Data get the same signature |
| Codec.ToProto | idena/script.js:168-175 | the message holds the Data, plus the signature's bytes only when the signature is truthy |
| Codec.ToBytes | idena/script.js:168-175 | toBytes fails iff the message cannot be built; with faithful framing its bytes deserialize to the message |
| Codec.TxToHex | idena/script.js:177-179 | toHex is "0x" and two digits per serialized byte, and both hexToUint8Array as written and the strict decoder read the serialized bytes back |
| Codec.BytesField | idena/script.js:144-146 | a jspb bytes getter's value is truthy iff the bytes are non-empty, and toBuffer of it gives the bytes back |
| Codec.FromProto | idena/script.js:133-149 | fromBytes fails iff Data is missing; it copies nonce, epoch and type, gives `to` as "0x" followed by lower-case hex digits that decode to the stored bytes (by `HexParse.CanonicalHexIsToHexString`, exactly toHexString(bytes, true)) and amounts as numbers equal to the bytes' big-endian value, and keeps payload and signature bytes |
| Codec.FromBytes | idena/script.js:133-137 | fromBytes succeeds iff the frame deserializes and carries Data. Otherwise it throws the frame error or the missing-Data error, and on success it decodes the message |
| Codec.FromBytesOfSerialized | idena/script.js:133-149 | with faithful framing, fromBytes of any serialized message decodes that message |
| Codec.FromHex | idena/script.js:129-131 | fromHex succeeds iff hexToUint8Array as written accepts the hex and fromBytes accepts the bytes. A NaN chunk throws 'Invalid hexString'; any other failure is a frame or missing-Data error |
| Codec.FromHexOfHexString | idena/script.js:129-131 | fromHex of toHexString(b, true) decodes exactly the bytes b |
| Codec.FromHexIgnoresTrailingDigit | idena/script.js:129-131 | one hex digit appended to valid hex does not change what fromHex returns |
| Codec.EncodeOfDecode | idena/script.js:133-149 | decoding and re-encoding a message with Data and minimal amounts gives the message back |
| Codec.DecodeIsRetraction | idena/script.js:133-149 | every decoded transaction re-encodes to a canonical message that decodes to the same transaction |
| Codec.DecodeOfEncodeFields | idena/script.js:133-149 | fromBytes after toBytes returns nonce, epoch, type and numeric amounts unchanged, a missing `to` as "0x", a `to` that toHexString(b, true) could have written ("0x" and an even number of lower-case hex digits) unchanged, and payload and signature as their bytes |
| Codec.DecodedAddressIsPadded | idena/script.js:59-60 | a "0x" `to` of lower-case hex digits comes back with an odd digit count padded by one leading '0': "0xabc" returns as "0x0abc" |
| Codec.NumericFieldsCanonical | idena/script.js:189-197 | a transaction whose amounts are non-negative numbers or absent encodes to a message with minimal amounts |
| Codec.BytesRoundTrip | idena/script.js:168-175 | with faithful framing, fromBytes(toBytes(tx)) decodes the encoded message |
| Codec.HexTransactionRoundTrip | idena/script.js:129-131 | with faithful framing, fromHex(toHex(tx)) decodes the encoded message |
| Codec.SignedRoundTrip | idena/script.js:151-179 | a signed transaction survives toHex/fromHex with its 65 signature bytes; with numeric amounts the decoded transaction has the same Data, so it hashes to the digest that was signed |
| Address.SliceFrom | idena/script.js:8 | `slice(n)` keeps the elements from index n, and is empty past the end |
| Address.PrivateKeyToAddress | idena/script.js:6-9 | fails exactly when a key chunk is NaN ('Invalid hexString') or secp256k1 rejects the key bytes (invalid key); otherwise returns a "0x" lower-case hex string |
| Address.AddressShape | idena/script.js:6-9 | with well-behaved primitives the address has 42 characters, and both decoders read it as bytes 12..32 of keccak-256 of public-key bytes 1..65 |
| Address.AddressIgnoresTrailingKeyDigit | idena/script.js:6-7 | a key with one hex digit more than a valid key gives the valid key's address |

## Left out

- `toJson` (idena/script.js:113-128) is not modelled. It is JSON formatting for display with no round-trip promise.
- The protobuf wire format (`serializeBinary`, `deserializeBinary`, the generated `models_pb`) is left out. It is generated library code: `proto/models_pb` is not part of this model. It appears only as the functions in `Messages.Primitives`, and round trips assume `Messages.FaithfulFraming`.
- The insides of keccak-256 and secp256k1 (`publicKeyCreate`, `ecdsaSign`) are left out. They are external cryptography: only output sizes are assumed (`Messages.WellBehaved`). Signing is a function of digest and key, so deterministic signing is assumed.
- The jspb getters that return base64 strings are left out. The codec never calls them.
- `Buffer.from(x)` and `toBuffer(Buffer)` are modelled on the bytes alone. Object identity and copying are not visible in a value model.
- `byte & 0xff` in `toHexString` is the identity here, because the model's arrays only hold bytes. Arrays of larger numbers are left out.
- `stripHexPrefix` on a non-string input (idena/script.js:17-19) is left out. Every caller in the model passes a string.
- Values.ToBuffer: numbers are integers. NaN, infinities and fractions reaching `toBuffer` are left out, because `toString(16)` of a fraction is not modelled.
- Values.ToBuffer: string lengths are counted in characters, where JavaScript counts UTF-16 code units. For a "0x" string holding a character outside the Basic Multilingual Plane, the odd/even padding decision can therefore differ: "0x1😀" gives no bytes here and [0x01] in JavaScript. Such strings are not hex in either reading.
- HexParse.ParseChunks: chunks are cut by characters, not by UTF-16 code units. For a body holding a character outside the Basic Multilingual Plane the chunk boundaries differ: "1😀" is one chunk here and parses to 1, while JavaScript's second chunk is a lone surrogate, which is NaN and throws. Non-hex keys and hex strings of that kind are not modelled faithfully.
- HexParse.HexToBytesAsWritten: inherits the character-counting gap of HexParse.ParseChunks, and so do `Codec.Sign`, `Codec.FromHex` and `Address.PrivateKeyToAddress`.
- Values.Utf8Encode: lone surrogate halves are left out. JavaScript would encode them as U+FFFD, and Dafny characters are Unicode scalar values.
- Numbers.BytesToNat: the number is exact. JavaScript's `parseInt` returns a double that rounds values above 2^53.
- Transactions.NewTransaction: nonce, epoch and type are non-negative integers. Other values given for them, and the uint32 width of the protobuf fields, are left out.
- The in-place mutation of the Transaction object by `sign` and `fromBytes` is modelled as returning a new value. Concurrent mutation is out of scope.

## Findings

| source | as written | input that shows it | evidently intended | confidence | as-written member | corrected member |
|---|---|---|---|---|---|---|
| idena/script.js:87-91 | a chunk is accepted when `parseInt` finds a leading digit, and the rest of the chunk is ignored | "0x1g" decodes to [0x01] | reject any non-hex character with 'Invalid hexString' | not executed | HexParse.PartialChunkAccepted | HexParse.HexToBytes |
| idena/script.js:87-91 | a sign is accepted and the negative value wraps modulo 256 on the store | "0x-1" decodes to [0xff] | reject the sign with 'Invalid hexString' | not executed | HexParse.SignedChunkAccepted | HexParse.HexToBytes |
| idena/script.js:84-91 | the array has `length / 2` (truncated) slots, so an odd-length body silently loses its last digit | "0xabc" decodes to [0xab] | pad an odd body with one leading zero nibble, as `toBuffer` does at idena/script.js:60, so "0xabc" decodes to [0x0a, 0xbc] | not executed | HexParse.OddLengthTruncated | HexParse.HexToBytesPadded |

There are two corrected decoders:
- `HexParse.HexToBytes` accepts exactly the bodies of even length made only of hex digits. `HexParse.HexRoundTrip` proves that it inverts `toHexString`. `HexParse.AsWrittenAgreesOnValidHex` proves that on every input it accepts, the code as written returns the same bytes.
- `HexParse.HexToBytesPadded` accepts every body made only of hex digits and pads an odd one. `Values.PaddedIsToBuffer` proves it is `toBuffer` on such strings, `HexParse.PaddedValue` that no digit is lost, and `HexParse.PaddedAgreesOnEvenHex` that on even bodies it is `HexToBytes`.

Both reject "0x1g" and "0x-1", so either corrects the first two rows.

`Codec.Sign`, `Codec.FromHex` and `Address.PrivateKeyToAddress` model the code and so decode with hexToUint8Array as written. They are tied to the corrected decoders as follows:
- on valid hex the two decoders agree (`Codec.SignWithValidKey`, `Codec.FromHexOfHexString`);
- every round trip goes through hex that `toHexString` wrote, where the two agree, so the round trips hold for both.

=== FILE: address.dfy ===
/** exports.privateKeyToAddress (idena/script.js:6-9): the last 20 bytes of
    keccak-256 of the uncompressed public key without its 0x04 tag byte. */
module Address {
  import opened Results
  import opened Hex
  import opened HexParse
  import opened Messages

  /** JavaScript's s.slice(from) for a non-negative start: empty past the end. */
  function SliceFrom(s: seq<Byte>, from: nat): (r: seq<Byte>)
    ensures |r| == if from <= |s| then |s| - from else 0
    ensures forall i | 0 <= i < |r| :: r[i] == s[from + i]
  {
    if from <= |s| then s[from..] else []
  }

  /** The key goes through hexToUint8Array as written, which throws only on a
      NaN chunk; a key secp256k1 rejects throws. */
  function PrivateKeyToAddress(privateKey: string, p: Primitives): (r: Result<string>)
    ensures r.Err? <==>
      || ParseChunks(StripHexPrefix(privateKey)).Err?
      || p.publicKeyCreate(HexToBytesAsWritten(privateKey).value).None?
    ensures r.Err? ==> r.error == if HexToBytesAsWritten(privateKey).Err? then InvalidHexString else InvalidKey
    ensures r.Ok? ==> IsHexPrefixed(r.value) && AllLowerHex(StripHexPrefix(r.value))
  {
    var key :- HexToBytesAsWritten(privateKey);
    match p.publicKeyCreate(key)
    case None => Err(InvalidKey)
    case Some(pubKey) =>
      var digest := p.keccak256(SliceFrom(pubKey, 1));
      Ok(ToHexString(SliceFrom(digest, 12), true))
  }

  /** With well-behaved primitives the address is "0x" and 40 digits, and
      it decodes to digest bytes 12..32 of the hash of public key bytes 1..65. */
  lemma AddressShape(privateKey: string, p: Primitives)
    requires WellBehaved(p)
    requires PrivateKeyToAddress(privateKey, p).Ok?
    ensures var key := HexToBytesAsWritten(privateKey).value;
      var pubKey := p.publicKeyCreate(key).value;
      var address := PrivateKeyToAddress(privateKey, p).value;
      && |address| == 42
      && HexToBytes(address) == Ok(p.keccak256(pubKey[1..])[12..32])
      && HexToBytesAsWritten(address) == HexToBytes(address)
  {
    var key := HexToBytesAsWritten(privateKey).value;
    var pubKey := p.publicKeyCreate(key).value;
    assert |pubKey| == 65;
    var digest := p.keccak256(pubKey[1..]);
    assert |digest| == 32;
    assert SliceFrom(digest, 12) == digest[12..32];
    HexRoundTrip(digest[12..32], true);
    AsWrittenAgreesOnValidHex(ToHexString(digest[12..32], true));
  }

  /** A key with one hex digit too many gives the address of the key without
      it: a 65-digit key is read as its first 64 digits. */
  lemma AddressIgnoresTrailingKeyDigit(body: string, c: char, p: Primitives)
    requires AllHex(body) && |body| % 2 == 0 && IsHexDigit(c)
    ensures PrivateKeyToAddress("0x" + (body + [c]), p) == PrivateKeyToAddress("0x" + body, p)
  {
    TrailingDigitIgnored(body, c);
    assert ("0x" + body)[..2] == "0x" && ("0x" + body)[2..] == body;
    AsWrittenAgreesOnValidHex("0x" + body);
  }
}

=== FILE: codec.dfy ===
/** sign, toBytes, toHex, fromBytes and fromHex of the Transaction class
    (idena/script.js:129-179), over abstract crypto and protobuf framing. */
module Codec {
  import opened Results
  import opened Hex
  import opened HexParse
  import opened Numbers
  import opened Values
  import opened Messages
  import opened Transactions

  /** The digest sign(key) signs: keccak-256 of the serialized Data. */
  function SigningHash(data: Data, p: Primitives): seq<Byte> {
    p.keccak256(p.serializeData(data))
  }

  /** sign(key): the signature is ecdsaSign over keccak-256 of the serialized
      Data, followed by the recovery id; nothing else changes. The key goes
      through hexToUint8Array as written, so it throws only on a NaN chunk;
      a key secp256k1 rejects throws too. */
  function Sign(tx: Transaction, key: string, p: Primitives): (r: Result<Transaction>)
    ensures r.Ok? ==> r.value == tx.(signature := r.value.signature) && r.value.signature.Buffer?
    ensures r.Ok? <==>
      && CreateData(tx).Ok? && HexToBytesAsWritten(key).Ok?
      && p.ecdsaSign(SigningHash(CreateData(tx).value, p), HexToBytesAsWritten(key).value).Some?
    ensures CreateData(tx).Err? ==> r == Err(CreateData(tx).error)
    ensures CreateData(tx).Ok? && ParseChunks(StripHexPrefix(key)).Err? ==> r == Err(InvalidHexString)
    ensures CreateData(tx).Ok? && HexToBytesAsWritten(key).Ok? && r.Err? ==> r.error == InvalidKey
  {
    var data :- CreateData(tx);
    var keyBytes :- HexToBytesAsWritten(key);
    match p.ecdsaSign(SigningHash(data, p), keyBytes)
    case None => Err(InvalidKey)
    case Some(out) => Ok(tx.(signature := Buffer(out.signature + [out.recid])))
  }

  /** With well-behaved primitives the stored signature is 65 bytes: 64
      bytes of ECDSA output, then the recovery id; it is what ecdsaSign
      returns for the hash of the serialized Data and the key's bytes. */
  lemma SignatureShape(tx: Transaction, key: string, p: Primitives)
    requires WellBehaved(p) && Sign(tx, key, p).Ok?
    ensures var s := Sign(tx, key, p).value.signature.bytes;
      var out := p.ecdsaSign(SigningHash(CreateData(tx).value, p), HexToBytesAsWritten(key).value).value;
      && |s| == 65 && s[..64] == out.signature && s[64] == out.recid < 4
      && Truthy(Sign(tx, key, p).value.signature)
  {
  }

  /** A well-formed key is read as the bytes its digits spell. */
  lemma SignWithValidKey(tx: Transaction, key: string, p: Primitives)
    requires HexToBytes(key).Ok? && CreateData(tx).Ok?
    ensures Sign(tx, key, p).Ok? <==> p.ecdsaSign(SigningHash(CreateData(tx).value, p), HexToBytes(key).value).Some?
  {
    AsWrittenAgreesOnValidHex(key);
  }

  /** A key with one hex digit too many signs as if the digit were absent:
      a 65-digit key is a 64-digit key. */
  lemma SignIgnoresTrailingKeyDigit(tx: Transaction, body: string, c: char, p: Primitives)
    requires AllHex(body) && |body| % 2 == 0 && IsHexDigit(c)
    ensures Sign(tx, "0x" + (body + [c]), p) == Sign(tx, "0x" + body, p)
  {
    TrailingDigitIgnored(body, c);
    assert ("0x" + body)[..2] == "0x" && ("0x" + body)[2..] == body;
    AsWrittenAgreesOnValidHex("0x" + body);
  }

  /** The signature already present plays no part in signing. */
  lemma SignIgnoresSignature(tx: Transaction, signature: Value, key: string, p: Primitives)
    ensures Sign(tx.(signature := signature), key, p) == Sign(tx, key, p)
  {
    DataIgnoresSignature(tx, signature);
  }

  /** Signing a signed transaction again with the same key changes nothing. */
  lemma ResignIsIdempotent(tx: Transaction, key: string, p: Primitives)
    requires Sign(tx, key, p).Ok?
    ensures Sign(Sign(tx, key, p).value, key, p) == Sign(tx, key, p)
  {
    SignIgnoresSignature(tx, Sign(tx, key, p).value.signature, key, p);
  }

  /** Transactions with the same Data get the same signature. */
  lemma SameDataSameSignature(tx1: Transaction, tx2: Transaction, key: string, p: Primitives)
    requires CreateData(tx1) == CreateData(tx2)
    ensures Sign(tx1, key, p).Ok? <==> Sign(tx2, key, p).Ok?
    ensures Sign(tx1, key, p).Ok? ==> Sign(tx1, key, p).value.signature == Sign(tx2, key, p).value.signature
  {
  }

  /** The message toBytes serializes: the Data, and the signature only when
      it is truthy. */
  function ToProto(tx: Transaction): (r: Result<ProtoTransaction>)
    ensures r.Ok? <==> CreateData(tx).Ok? && !Rejected(tx.signature)
    ensures r.Ok? ==> r.value.data == Some(CreateData(tx).value)
    ensures r.Ok? && !Truthy(tx.signature) ==> r.value.signature == []
    ensures r.Ok? && Truthy(tx.signature) ==> Ok(r.value.signature) == ToBuffer(tx.signature)
  {
    var data :- CreateData(tx);
    var signature :- FieldBytes(tx.signature);
    Ok(ProtoTransaction(Some(data), signature))
  }

  /** toBytes: the serialized message. */
  function ToBytes(tx: Transaction, p: Primitives): (r: Result<seq<Byte>>)
    ensures r.Ok? <==> ToProto(tx).Ok?
    ensures r.Ok? && FaithfulFraming(p) ==> p.deserialize(r.value) == Some(ToProto(tx).value)
  {
    var m :- ToProto(tx);
    Ok(p.serialize(m))
  }

  /** toHex: "0x" and the serialized bytes in lower-case hex. */
  function TxToHex(tx: Transaction, p: Primitives): (r: Result<string>)
    ensures r.Ok? <==> ToBytes(tx, p).Ok?
    ensures r.Ok? ==> IsHexPrefixed(r.value) && |r.value| == 2 + 2 * |ToBytes(tx, p).value|
    ensures r.Ok? ==> HexToBytes(r.value) == ToBytes(tx, p) && HexToBytesAsWritten(r.value) == ToBytes(tx, p)
  {
    var bytes :- ToBytes(tx, p);
    HexRoundTrip(bytes, true);
    AsWrittenAgreesOnValidHex(ToHexString(bytes, true));
    Ok(ToHexString(bytes, true))
  }

  /** What a jspb getter of a bytes field gives: "" when the field is
      absent, the bytes as a Uint8Array otherwise. */
  function BytesField(b: seq<Byte>): (v: Value)
    ensures Truthy(v) <==> b != []
    ensures ToBuffer(v) == Ok(b)
  {
    if b == [] then Str("") else Uint8Array(b)
  }

  /** fromBytes after deserialization: every field is overwritten from the
      message. A message without Data throws. */
  function FromProto(m: ProtoTransaction): (r: Result<Transaction>)
    ensures r.Err? <==> m.data.None?
    ensures r.Err? ==> r.error == MissingData
    ensures r.Ok? ==> var d := m.data.value; var tx := r.value;
      && tx.nonce == d.nonce && tx.epoch == d.epoch && tx.txType == d.txType
      && tx.to.Str? && IsHexPrefixed(tx.to.s) && AllLowerHex(StripHexPrefix(tx.to.s))
      && HexToBytes(tx.to.s) == Ok(d.to)
      && tx.amount.Num? && BigEndian(d.amount) == tx.amount.n
      && tx.maxFee.Num? && BigEndian(d.maxFee) == tx.maxFee.n
      && tx.tips.Num? && BigEndian(d.tips) == tx.tips.n
      && ToBuffer(tx.payload) == Ok(d.payload)
      && ToBuffer(tx.signature) == Ok(m.signature)
  {
    match m.data
    case None => Err(MissingData)
    case Some(d) =>
      HexRoundTrip(d.to, true);
      Ok(Transaction(d.nonce, d.epoch, d.txType, Str(ToHexString(d.to, true)),
        Num(BytesToNat(d.amount)), Num(BytesToNat(d.maxFee)), Num(BytesToNat(d.tips)),
        BytesField(d.payload), BytesField(m.signature)))
  }

  /** fromBytes: deserializeBinary, which throws on a malformed frame, then
      the fields; a frame without Data throws as well. */
  function FromBytes(bytes: seq<Byte>, p: Primitives): (r: Result<Transaction>)
    ensures r.Ok? <==> p.deserialize(bytes).Some? && p.deserialize(bytes).value.data.Some?
    ensures r.Err? ==> r.error == if p.deserialize(bytes).None? then MalformedFrame else MissingData
    ensures r.Ok? ==> r == FromProto(p.deserialize(bytes).value)
  {
    match p.deserialize(bytes)
    case None => Err(MalformedFrame)
    case Some(m) => FromProto(m)
  }

  /** Under faithful framing fromBytes reads back any serialized message. */
  lemma FromBytesOfSerialized(m: ProtoTransaction, p: Primitives)
    requires FaithfulFraming(p)
    ensures FromBytes(p.serialize(m), p) == FromProto(m)
  {
  }

  /** fromHex: hexToUint8Array as written, then fromBytes. */
  function FromHex(hex: string, p: Primitives): (r: Result<Transaction>)
    ensures r.Ok? <==> HexToBytesAsWritten(hex).Ok? && FromBytes(HexToBytesAsWritten(hex).value, p).Ok?
    ensures ParseChunks(StripHexPrefix(hex)).Err? ==> r == Err(InvalidHexString)
    ensures r.Err? && HexToBytesAsWritten(hex).Ok? ==> r.error == MalformedFrame || r.error == MissingData
  {
    var bytes :- HexToBytesAsWritten(hex);
    FromBytes(bytes, p)
  }

  /** fromHex inverts toHexString(b, true): it decodes exactly the bytes. */
  lemma FromHexOfHexString(b: seq<Byte>, p: Primitives)
    ensures FromHex(ToHexString(b, true), p) == FromBytes(b, p)
  {
    HexRoundTrip(b, true);
    AsWrittenAgreesOnValidHex(ToHexString(b, true));
  }

  /** One hex digit appended to valid hex changes nothing: fromHex(toHex(tx)
      + "0") decodes tx. */
  lemma FromHexIgnoresTrailingDigit(body: string, c: char, p: Primitives)
    requires AllHex(body) && |body| % 2 == 0 && IsHexDigit(c)
    ensures FromHex("0x" + (body + [c]), p) == FromHex("0x" + body, p)
  {
    TrailingDigitIgnored(body, c);
    assert ("0x" + body)[..2] == "0x" && ("0x" + body)[2..] == body;
    AsWrittenAgreesOnValidHex("0x" + body);
  }

  /** A message as toBytes writes it from numbers: Data present and the
      three amounts in minimal big-endian form. */
  predicate Canonical(m: ProtoTransaction) {
    m.data.Some? && Minimal(m.data.value.amount) && Minimal(m.data.value.maxFee) && Minimal(m.data.value.tips)
  }

  /** Decoding then encoding a canonical message gives the message back. */
  lemma EncodeOfDecode(m: ProtoTransaction)
    requires Canonical(m)
    ensures FromProto(m).Ok? && ToProto(FromProto(m).value) == Ok(m)
  {
    var d := m.data.value;
    var tx := FromProto(m).value;
    PrefixedHexBuffer(d.to);
    MinimalAmount(d.amount);
    MinimalAmount(d.maxFee);
    MinimalAmount(d.tips);
    assert CreateData(tx) == Ok(d);
  }

  /** A minimal amount decoded by bufferToInt is re-encoded to the same bytes. */
  lemma MinimalAmount(b: seq<Byte>)
    requires Minimal(b)
    ensures FieldBytes(Num(BytesToNat(b))) == Ok(b)
  {
    MinimalBytesRoundTrip(b);
  }

  /** Every message that decodes is canonical once encoded again, and the
      second decoding gives the first: fromBytes after toBytes is a
      retraction onto decoded transactions. */
  lemma DecodeIsRetraction(m: ProtoTransaction)
    requires m.data.Some?
    ensures var tx := FromProto(m).value;
      && ToProto(tx).Ok? && Canonical(ToProto(tx).value)
      && FromProto(ToProto(tx).value) == Ok(tx)
  {
    var tx := FromProto(m).value;
    DecodedIsNumeric(m);
    NumericFieldsCanonical(tx);
    var m2 := ToProto(tx).value;
    DecodeOfEncodeFields(tx);
    var tx2 := FromProto(m2).value;
    assert tx2.to == tx.to;
    assert tx2 == tx;
  }

  lemma DecodedIsNumeric(m: ProtoTransaction)
    requires m.data.Some?
    ensures var tx := FromProto(m).value;
      && !Rejected(tx.to) && NumericOrAbsent(tx.amount) && NumericOrAbsent(tx.maxFee) && NumericOrAbsent(tx.tips)
      && !Rejected(tx.payload) && !Rejected(tx.signature)
      && ToProto(tx).Ok?
  {
    var d := m.data.value;
    var tx := FromProto(m).value;
    assert tx.amount == Num(BytesToNat(d.amount)) && tx.maxFee == Num(BytesToNat(d.maxFee))
      && tx.tips == Num(BytesToNat(d.tips));
    assert tx.payload == BytesField(d.payload) && tx.signature == BytesField(m.signature);
    AcceptedFieldsBuild(tx);
  }

  /** An amount field holding a non-negative number or a falsy value. */
  predicate NumericOrAbsent(v: Value) {
    (v.Num? && v.n >= 0) || (!Truthy(v) && !v.Bool?)
  }

  /** When every amount is a non-negative number (or absent), the encoded
      message is canonical. */
  lemma NumericFieldsCanonical(tx: Transaction)
    requires ToProto(tx).Ok?
    requires NumericOrAbsent(tx.amount) && NumericOrAbsent(tx.maxFee) && NumericOrAbsent(tx.tips)
    ensures Canonical(ToProto(tx).value)
  {
    CreateDataFields(tx);
    NumericOrAbsentMinimal(tx.amount);
    NumericOrAbsentMinimal(tx.maxFee);
    NumericOrAbsentMinimal(tx.tips);
  }

  lemma NumericOrAbsentMinimal(v: Value)
    requires NumericOrAbsent(v)
    ensures FieldBytes(v).Ok? && Minimal(FieldBytes(v).value)
  {
    if v.Num? {
      NumberRoundTrip(v.n);
    }
  }

  /** Field by field, what fromBytes recovers from what toBytes wrote:
      nonce, epoch and type verbatim; numbers as the same numbers; `to` as
      its lower-case "0x" hex, so a "0x" string of an even number of
      lower-case digits and a missing `to` ("0x") come back unchanged; payload and signature as
      their bytes. */
  lemma DecodeOfEncodeFields(tx: Transaction)
    requires ToProto(tx).Ok?
    ensures FromProto(ToProto(tx).value).Ok?
    ensures var tx2 := FromProto(ToProto(tx).value).value;
      && tx2.nonce == tx.nonce && tx2.epoch == tx.epoch && tx2.txType == tx.txType
      && (tx.amount.Num? ==> tx2.amount == tx.amount)
      && (tx.maxFee.Num? ==> tx2.maxFee == tx.maxFee)
      && (tx.tips.Num? ==> tx2.tips == tx.tips)
      && (!Truthy(tx.to) ==> tx2.to == Str("0x"))
      && (forall b :: tx.to == Str(ToHexString(b, true)) ==> tx2.to == tx.to)
      && tx2.payload == BytesField(FieldBytes(tx.payload).value)
      && tx2.signature == BytesField(FieldBytes(tx.signature).value)
  {
    CreateDataFields(tx);
    NumericFieldStored(tx);
    forall b | tx.to == Str(ToHexString(b, true))
      ensures Str(ToHexString(CreateData(tx).value.to, true)) == tx.to
    {
      HexAddressKept(tx, b);
    }
  }

  /** A "0x" `to` of lower-case hex digits comes back with its digits padded
      to even length, as toBuffer reads it: "0xabc" returns as "0x0abc". */
  lemma DecodedAddressIsPadded(tx: Transaction, digits: string)
    requires ToProto(tx).Ok? && tx.to == Str("0x" + digits) && AllLowerHex(digits)
    ensures FromProto(ToProto(tx).value).Ok?
    ensures FromProto(ToProto(tx).value).value.to == Str("0x" + PadToEven(digits))
  {
    var padded := PadToEven(digits);
    var b := CreateData(tx).value.to;
    CreateDataFields(tx);
    PrefixedString(digits);
    assert b == NodeHexDecode(padded);
    assert AllLowerHex(padded) by {
      if |digits| % 2 == 1 {
        assert forall i | 1 <= i < |padded| :: padded[i] == digits[i - 1];
      }
    }
    HexBodyOfDecode(padded);
    StripToHexString(b, true);
    var out := ToHexString(b, true);
    assert out[..2] == "0x" && out == out[..2] + out[2..];
  }

  lemma HexAddressKept(tx: Transaction, b: seq<Byte>)
    requires CreateData(tx).Ok? && tx.to == Str(ToHexString(b, true))
    ensures CreateData(tx).value.to == b
  {
    CreateDataFields(tx);
    PrefixedHexBuffer(b);
  }

  /** Serializing and deserializing changes nothing when the framing is
      faithful: fromBytes(toBytes(tx)) decodes the encoded message. */
  lemma BytesRoundTrip(tx: Transaction, p: Primitives)
    requires FaithfulFraming(p) && ToBytes(tx, p).Ok?
    ensures FromBytes(ToBytes(tx, p).value, p) == FromProto(ToProto(tx).value)
  {
  }

  /** The same through the hex form: fromHex(toHex(tx)). */
  lemma HexTransactionRoundTrip(tx: Transaction, p: Primitives)
    requires FaithfulFraming(p) && TxToHex(tx, p).Ok?
    ensures FromHex(TxToHex(tx, p).value, p) == FromProto(ToProto(tx).value)
  {
    FromHexOfHexString(ToBytes(tx, p).value, p);
  }

  /** A signed transaction survives toHex and fromHex with its 65 signature
      bytes, and, when its amounts are numbers, with the same Data, so the
      decoded transaction hashes to the digest that was signed. */
  lemma SignedRoundTrip(tx: Transaction, key: string, p: Primitives)
    requires WellBehaved(p) && FaithfulFraming(p) && Sign(tx, key, p).Ok?
    ensures var signed := Sign(tx, key, p).value;
      && TxToHex(signed, p).Ok?
      && FromHex(TxToHex(signed, p).value, p).Ok?
      && var decoded := FromHex(TxToHex(signed, p).value, p).value;
      && decoded.signature == Uint8Array(signed.signature.bytes)
      && |decoded.signature.bytes| == 65
      && (NumericOrAbsent(tx.amount) && NumericOrAbsent(tx.maxFee) && NumericOrAbsent(tx.tips)
          ==> CreateData(decoded) == CreateData(tx))
  {
    var signed := Sign(tx, key, p).value;
    SignatureShape(tx, key, p);
    DataIgnoresSignature(tx, signed.signature);
    assert ToProto(signed).Ok?;
    HexTransactionRoundTrip(signed, p);
    DecodeOfEncodeFields(signed);
    if NumericOrAbsent(tx.amount) && NumericOrAbsent(tx.maxFee) && NumericOrAbsent(tx.tips) {
      NumericFieldsCanonical(signed);
      var m := ToProto(signed).value;
      EncodeOfDecode(m);
    }
  }
}

=== FILE: hex.dfy ===
/** Hex digits, hex strings and the byte <-> hex conversions of idena/script.js:
    toHexString, isHexPrefixed, stripHexPrefix, padToEven, Number's
    toString(16), and Node's Buffer.from(s, 'hex'). */
module Hex {

  /** One element of a Buffer or Uint8Array. */
  type Byte = b: int | 0 <= b < 256

  /** A digit parseInt and Buffer.from accept in base 16, either case. */
  predicate IsHexDigit(c: char) {
    '0' <= c <= '9' || 'a' <= c <= 'f' || 'A' <= c <= 'F'
  }

  /** A digit as toString(16) writes it. */
  predicate IsLowerHexDigit(c: char) {
    '0' <= c <= '9' || 'a' <= c <= 'f'
  }

  predicate AllHex(s: string) {
    forall i | 0 <= i < |s| :: IsHexDigit(s[i])
  }

  predicate AllLowerHex(s: string) {
    forall i | 0 <= i < |s| :: IsLowerHexDigit(s[i])
  }

  function DigitValue(c: char): (d: nat)
    requires IsHexDigit(c)
    ensures d < 16
  {
    if '0' <= c <= '9' then c as int - '0' as int
    else if 'a' <= c <= 'f' then c as int - 'a' as int + 10
    else c as int - 'A' as int + 10
  }

  /** The lower-case digit for d; DigitValue is its inverse. */
  function HexDigitChar(d: nat): (c: char)
    requires d < 16
    ensures IsLowerHexDigit(c)
    ensures DigitValue(c) == d
  {
    if d < 10 then ('0' as int + d) as char else ('a' as int + d - 10) as char
  }

  lemma HexDigitCharOfValue(c: char)
    requires IsLowerHexDigit(c)
    ensures HexDigitChar(DigitValue(c)) == c
  {
  }

  /** The number a string of hex digits denotes, most significant digit first. */
  function HexValue(s: string): nat
    requires AllHex(s)
  {
    if |s| == 0 then 0 else HexValue(s[..|s| - 1]) * 16 + DigitValue(s[|s| - 1])
  }

  /** The digits of n in base 16 without leading zeros, "0" for zero:
      Number.prototype.toString(16) on a non-negative integer. */
  function NatToHex(n: nat): (r: string)
    ensures 1 <= |r|
    ensures AllLowerHex(r) && AllHex(r)
    ensures HexValue(r) == n
    ensures n == 0 <==> r == "0"
    ensures n > 0 ==> r[0] != '0'
  {
    if n < 16 then [HexDigitChar(n)]
    else
      var high := NatToHex(n / 16);
      var r := high + [HexDigitChar(n % 16)];
      assert r[..|r| - 1] == high;
      r
  }

  /** A digit string as toString(16) produces it: lower case, no leading zero. */
  predicate CanonicalHex(s: string) {
    1 <= |s| && AllLowerHex(s) && (s[0] == '0' ==> s == "0")
  }

  /** toString(16) is a bijection between naturals and canonical digit strings. */
  lemma {:induction false} NatToHexOfValue(s: string)
    requires CanonicalHex(s)
    ensures AllHex(s) && NatToHex(HexValue(s)) == s
  {
    var n := HexValue(s);
    if |s| == 1 {
      assert s[..0] == "";
      HexDigitCharOfValue(s[0]);
    } else {
      var init := s[..|s| - 1];
      assert CanonicalHex(init);
      NatToHexOfValue(init);
      assert HexValue(init) > 0;
      assert n >= 16;
      assert n / 16 == HexValue(init) && n % 16 == DigitValue(s[|s| - 1]);
      HexDigitCharOfValue(s[|s| - 1]);
      assert s == init + [s[|s| - 1]];
    }
  }

  /** Leading zero digits do not change the value. */
  lemma {:induction false} HexValueLeadingZero(s: string)
    requires AllHex(s)
    ensures AllHex("0" + s) && HexValue("0" + s) == HexValue(s)
  {
    var z := "0" + s;
    if |s| == 0 {
      assert z[..0] == "";
    } else {
      var init := s[..|s| - 1];
      HexValueLeadingZero(init);
      assert z[..|z| - 1] == "0" + init;
      assert z[|z| - 1] == s[|s| - 1];
    }
  }

  /** Appending two digits multiplies by 256 and adds the byte they spell. */
  lemma HexValueAppendPair(s: string, c0: char, c1: char)
    requires AllHex(s) && IsHexDigit(c0) && IsHexDigit(c1)
    ensures AllHex(s + [c0, c1])
    ensures HexValue(s + [c0, c1]) == HexValue(s) * 256 + DigitValue(c0) * 16 + DigitValue(c1)
  {
    var t := s + [c0, c1];
    assert t[..|t| - 1] == s + [c0];
    assert (s + [c0])[..|s|] == s;
  }

  lemma HexValueOneDigit(c: char)
    requires IsHexDigit(c)
    ensures AllHex([c]) && HexValue([c]) == DigitValue(c)
  {
    assert [c][..0] == "";
  }

  lemma HexValueTwoDigits(c0: char, c1: char)
    requires IsHexDigit(c0) && IsHexDigit(c1)
    ensures AllHex([c0, c1]) && HexValue([c0, c1]) == DigitValue(c0) * 16 + DigitValue(c1)
  {
    HexValueAppendPair("", c0, c1);
    assert "" + [c0, c1] == [c0, c1];
  }

  /** `0${b.toString(16)}`.slice(-2): one byte as exactly two lower-case digits. */
  function ByteToHex(b: Byte): (r: string)
    ensures |r| == 2 && AllLowerHex(r) && AllHex(r)
    ensures r == [HexDigitChar(b / 16), HexDigitChar(b % 16)]
    ensures DigitValue(r[0]) * 16 + DigitValue(r[1]) == b
  {
    var padded := "0" + NatToHex(b);
    assert b >= 16 ==> NatToHex(b) == [HexDigitChar(b / 16), HexDigitChar(b % 16)];
    padded[|padded| - 2..]
  }

  /** The digits of a byte sequence, two per byte, no prefix. */
  function HexBody(bytes: seq<Byte>): (r: string)
    ensures |r| == 2 * |bytes|
    ensures AllLowerHex(r) && AllHex(r)
  {
    if |bytes| == 0 then "" else ByteToHex(bytes[0]) + HexBody(bytes[1..])
  }

  /** Byte i is written as digits 2i and 2i+1: high nibble first. */
  lemma {:induction false} HexBodyAt(bytes: seq<Byte>, i: nat)
    requires i < |bytes|
    ensures HexBody(bytes)[2 * i] == HexDigitChar(bytes[i] / 16)
    ensures HexBody(bytes)[2 * i + 1] == HexDigitChar(bytes[i] % 16)
  {
    if i > 0 {
      var tail := HexBody(bytes[1..]);
      HexBodyAt(bytes[1..], i - 1);
      assert bytes[1..][i - 1] == bytes[i];
      ShiftedDigits(HexBody(bytes), ByteToHex(bytes[0]), tail, i - 1);
    }
  }

  lemma ShiftedDigits(whole: string, head: string, tail: string, j: nat)
    requires whole == head + tail && |head| == 2 && 2 * j + 1 < |tail|
    ensures whole[2 * (j + 1)] == tail[2 * j] && whole[2 * (j + 1) + 1] == tail[2 * j + 1]
  {
  }

  lemma {:induction false} HexBodyAppend(a: seq<Byte>, b: seq<Byte>)
    ensures HexBody(a + b) == HexBody(a) + HexBody(b)
  {
    if |a| == 0 {
      assert a + b == b;
    } else {
      assert (a + b)[1..] == a[1..] + b;
      HexBodyAppend(a[1..], b);
    }
  }

  /** toHexString(bytes, withPrefix). */
  function ToHexString(bytes: seq<Byte>, withPrefix: bool): (r: string)
    ensures |r| == 2 * |bytes| + (if withPrefix then 2 else 0)
    ensures IsHexPrefixed(r) <==> withPrefix
    ensures AllLowerHex(StripHexPrefix(r))
  {
    var body := HexBody(bytes);
    var r := (if withPrefix then "0x" else "") + body;
    assert withPrefix ==> r[2..] == body;
    assert !withPrefix && |r| >= 2 ==> r[1] != 'x' by {
      if !withPrefix && |r| >= 2 {
        assert IsLowerHexDigit(body[1]);
      }
    }
    r
  }

  lemma StripToHexString(bytes: seq<Byte>, withPrefix: bool)
    ensures StripHexPrefix(ToHexString(bytes, withPrefix)) == HexBody(bytes)
  {
    var body := HexBody(bytes);
    if withPrefix {
      assert ("0x" + body)[2..] == body;
    } else {
      assert "" + body == body;
    }
  }

  /** isHexPrefixed: the first two characters are exactly "0x" (lower case only). */
  predicate IsHexPrefixed(s: string)
    ensures IsHexPrefixed(s) ==> |s| >= 2 && s[..2] == "0x" && !IsHexDigit(s[1])
  {
    |s| >= 2 && s[0] == '0' && s[1] == 'x'
  }

  /** stripHexPrefix on a string. */
  function StripHexPrefix(s: string): (r: string)
    ensures IsHexPrefixed(s) ==> "0x" + r == s
    ensures !IsHexPrefixed(s) ==> r == s
  {
    if IsHexPrefixed(s) then s[2..] else s
  }

  /** padToEven: one leading '0' when the length is odd. */
  function PadToEven(a: string): (r: string)
    ensures |r| % 2 == 0
    ensures |a| % 2 == 0 ==> r == a
    ensures |a| % 2 == 1 ==> r == "0" + a
  {
    if |a| % 2 == 1 then "0" + a else a
  }

  lemma PadToEvenKeepsValue(a: string)
    requires AllHex(a)
    ensures AllHex(PadToEven(a)) && HexValue(PadToEven(a)) == HexValue(a)
  {
    if |a| % 2 == 1 {
      HexValueLeadingZero(a);
    }
  }

  /** Buffer.from(s, 'hex') in Node: decodes digit pairs from the front and
      stops at the first pair that is not two hex digits. */
  function NodeHexDecode(s: string): (r: seq<Byte>)
    ensures |r| <= |s| / 2
  {
    if |s| >= 2 && IsHexDigit(s[0]) && IsHexDigit(s[1]) then
      [DigitValue(s[0]) * 16 + DigitValue(s[1])] + NodeHexDecode(s[2..])
    else []
  }

  /** Valid even-length hex decodes in full: one byte per pair. */
  lemma {:induction false} DecodeLength(s: string)
    requires AllHex(s) && |s| % 2 == 0
    ensures |NodeHexDecode(s)| == |s| / 2
    decreases |s|
  {
    if |s| >= 2 {
      assert AllHex(s[2..]) by {
        assert forall i | 0 <= i < |s| - 2 :: s[2..][i] == s[i + 2];
      }
      DecodeLength(s[2..]);
    }
  }

  lemma DecodeStep(s: string)
    requires |s| >= 2 && IsHexDigit(s[0]) && IsHexDigit(s[1])
    ensures NodeHexDecode(s) == [DigitValue(s[0]) * 16 + DigitValue(s[1])] + NodeHexDecode(s[2..])
  {
  }

  /** Every decoded byte comes from a pair of hex digits: byte i is the
      value of digits 2i and 2i+1. */
  lemma {:induction false} DecodedAt(s: string, i: nat)
    requires i < |NodeHexDecode(s)|
    ensures 2 * i + 1 < |s| && IsHexDigit(s[2 * i]) && IsHexDigit(s[2 * i + 1])
    ensures NodeHexDecode(s)[i] == DigitValue(s[2 * i]) * 16 + DigitValue(s[2 * i + 1])
  {
    DecodeStep(s);
    if i > 0 {
      DecodedAt(s[2..], i - 1);
      assert s[2 * i] == s[2..][2 * (i - 1)];
      assert s[2 * i + 1] == s[2..][2 * (i - 1) + 1];
    }
  }

  /** Decoding one more pair of digits appends one byte. */
  lemma {:induction false} DecodeAppendPair(s: string, c0: char, c1: char)
    requires AllHex(s) && |s| % 2 == 0 && IsHexDigit(c0) && IsHexDigit(c1)
    ensures NodeHexDecode(s + [c0, c1]) == NodeHexDecode(s) + [DigitValue(c0) * 16 + DigitValue(c1)]
    decreases |s|
  {
    var t := s + [c0, c1];
    if |s| == 0 {
      assert t == [c0, c1] && t[2..] == "";
      DecodeStep(t);
    } else {
      assert t[0] == s[0] && t[1] == s[1];
      assert t[2..] == s[2..] + [c0, c1];
      DecodeStep(t);
      DecodeStep(s);
      DecodeAppendPair(s[2..], c0, c1);
    }
  }

  /** The bytes decoded from even-length hex denote the hex's value. */
  lemma {:induction false} HexValueOfDecode(hex: string)
    requires AllHex(hex) && |hex| % 2 == 0
    ensures BigEndian(NodeHexDecode(hex)) == HexValue(hex)
    decreases |hex|
  {
    if |hex| > 0 {
      var init := hex[..|hex| - 2];
      var c0, c1 := hex[|hex| - 2], hex[|hex| - 1];
      assert hex == init + [c0, c1];
      HexValueOfDecode(init);
      HexValueAppendPair(init, c0, c1);
      DecodeAppendPair(init, c0, c1);
      var d := NodeHexDecode(hex);
      assert d[..|d| - 1] == NodeHexDecode(init);
    }
  }

  /** Decoding the digits toHexString writes gives the bytes back. */
  lemma {:induction false} DecodeHexBody(bytes: seq<Byte>)
    ensures NodeHexDecode(HexBody(bytes)) == bytes
  {
    if |bytes| > 0 {
      var h := HexBody(bytes);
      var b := ByteToHex(bytes[0]);
      assert h == b + HexBody(bytes[1..]);
      assert h[0] == b[0] && h[1] == b[1] && h[2..] == HexBody(bytes[1..]);
      DecodeStep(h);
      DecodeHexBody(bytes[1..]);
    }
  }

  /** Re-encoding decoded lower-case digits gives the digits back. */
  lemma {:induction false} HexBodyOfDecode(s: string)
    requires AllLowerHex(s) && |s| % 2 == 0
    ensures HexBody(NodeHexDecode(s)) == s
    decreases |s|
  {
    if |s| > 0 {
      assert IsLowerHexDigit(s[0]) && IsLowerHexDigit(s[1]);
      var d := NodeHexDecode(s);
      DecodeStep(s);
      assert AllLowerHex(s[2..]);
      HexBodyOfDecode(s[2..]);
      assert d[1..] == NodeHexDecode(s[2..]);
      ByteToHexOfPair(s[0], s[1]);
      assert s == [s[0], s[1]] + s[2..];
    }
  }

  /** Two lower-case digits print back from the byte they spell. */
  lemma ByteToHexOfPair(c0: char, c1: char)
    requires IsLowerHexDigit(c0) && IsLowerHexDigit(c1)
    ensures ByteToHex(DigitValue(c0) * 16 + DigitValue(c1)) == [c0, c1]
  {
    var b := DigitValue(c0) * 16 + DigitValue(c1);
    assert b / 16 == DigitValue(c0) && b % 16 == DigitValue(c1);
    HexDigitCharOfValue(c0);
    HexDigitCharOfValue(c1);
  }

  /** A Byte sequence's value in big-endian order: the reference meaning of
      "minimal big-endian bytes". */
  function BigEndian(bytes: seq<Byte>): nat {
    if |bytes| == 0 then 0 else BigEndian(bytes[..|bytes| - 1]) * 256 + bytes[|bytes| - 1]
  }

  /** The hex digits of a byte sequence denote its big-endian value. */
  lemma {:induction false} HexValueOfHexBody(bytes: seq<Byte>)
    ensures HexValue(HexBody(bytes)) == BigEndian(bytes)
  {
    if |bytes| > 0 {
      var init := bytes[..|bytes| - 1];
      var last := bytes[|bytes| - 1];
      assert bytes == init + [last];
      HexBodyAppend(init, [last]);
      HexValueOfHexBody(init);
      var h := ByteToHex(last);
      assert HexBody([last]) == h;
      HexValueAppendPair(HexBody(init), h[0], h[1]);
      assert HexBody(init) + [h[0], h[1]] == HexBody(bytes);
    }
  }
}

=== FILE: hex_parse.dfy ===
/** hexToUint8Array (idena/script.js:81-95) as written, which the codec's
    sign, fromHex and privateKeyToAddress call, the parseInt(…, 16) it relies
    on, and two corrected decoders: a strict one, and one that pads an odd
    body as toBuffer does. */
module HexParse {
  import opened Results
  import opened Hex

  /** The characters parseInt skips before the number: ECMAScript's
      WhiteSpace (tab, VT, FF, ZWNBSP and category Zs) and LineTerminator. */
  predicate IsJsWhitespace(c: char) {
    c == '\t' || c == '\n' || c == '\U{B}' || c == '\U{C}' || c == '\r' || c == ' ' ||
    c == '\U{A0}' || c == '\U{1680}' || ('\U{2000}' <= c <= '\U{200A}') ||
    c == '\U{2028}' || c == '\U{2029}' || c == '\U{202F}' || c == '\U{205F}' ||
    c == '\U{3000}' || c == '\U{FEFF}'
  }

  /** A hex digit is neither skipped as whitespace, nor read as a sign, nor
      part of a radix prefix's 'x': it starts the digit run itself. */
  lemma HexDigitIsNotSpaceOrSign(c: char)
    requires IsHexDigit(c)
    ensures !IsJsWhitespace(c) && c != '+' && c != '-' && c != 'x' && c != 'X'
  {
  }

  /** s without its leading whitespace. */
  function TrimStart(s: string): string {
    if |s| > 0 && IsJsWhitespace(s[0]) then TrimStart(s[1..]) else s
  }

  /** The longest prefix of s made of hex digits. */
  function LeadingHexDigits(s: string): (r: string)
    ensures AllHex(r)
  {
    if |s| > 0 && IsHexDigit(s[0]) then [s[0]] + LeadingHexDigits(s[1..]) else ""
  }

  /** s without one leading sign. */
  function SkipSign(t: string): string {
    if |t| > 0 && (t[0] == '-' || t[0] == '+') then t[1..] else t
  }

  /** s without a leading "0x" or "0X" (parseInt's radix-16 prefix). */
  function SkipRadixPrefix(u: string): string {
    if |u| >= 2 && u[0] == '0' && (u[1] == 'x' || u[1] == 'X') then u[2..] else u
  }

  /** parseInt(s, 16) on exact integers, NaN as None: skip whitespace, take
      one sign, drop a "0x"/"0X" prefix, then read the longest run of hex
      digits; no digits is NaN. A string whose first character can start no
      number (neither whitespace, a sign nor a digit) is NaN. */
  function ParseIntHex(s: string): (r: Option<int>)
    ensures |s| > 0 && !IsHexDigit(s[0]) && !IsJsWhitespace(s[0]) && s[0] != '+' && s[0] != '-' ==> r.None?
  {
    var t := TrimStart(s);
    var negative := |t| > 0 && t[0] == '-';
    var digits := LeadingHexDigits(SkipRadixPrefix(SkipSign(t)));
    if |digits| == 0 then None
    else Some(if negative then -(HexValue(digits) as int) else HexValue(digits))
  }

  lemma {:induction false} LeadingHexDigitsOfDigits(s: string)
    requires AllHex(s)
    ensures LeadingHexDigits(s) == s
  {
    if |s| > 0 {
      LeadingHexDigitsOfDigits(s[1..]);
    }
  }

  /** A non-empty run of hex digits is read as the number it denotes. */
  lemma ParseIntHexOfDigits(s: string)
    requires AllHex(s) && |s| > 0
    ensures ParseIntHex(s) == Some(HexValue(s))
  {
    HexDigitIsNotSpaceOrSign(s[0]);
    assert TrimStart(s) == s;
    assert SkipSign(s) == s;
    if |s| >= 2 {
      HexDigitIsNotSpaceOrSign(s[1]);
    }
    assert SkipRadixPrefix(s) == s;
    LeadingHexDigitsOfDigits(s);
  }

  /** The prefix "0x"/"0X" alone is NaN, although '0' is a digit. */
  lemma ParseIntHexRadixPrefixAlone(c1: char)
    requires c1 == 'x' || c1 == 'X'
    ensures ParseIntHex(['0', c1]) == None
  {
    var s := ['0', c1];
    assert TrimStart(s) == s;
    assert SkipRadixPrefix(s) == "";
  }

  /** A digit followed by a non-digit (other than the radix prefix) reads as that digit. */
  lemma ParseIntHexOneDigitThenJunk(c0: char, c1: char)
    requires IsHexDigit(c0) && !IsHexDigit(c1) && !(c0 == '0' && (c1 == 'x' || c1 == 'X'))
    ensures ParseIntHex([c0, c1]) == Some(DigitValue(c0))
  {
    var s := [c0, c1];
    HexDigitIsNotSpaceOrSign(c0);
    assert TrimStart(s) == s;
    assert SkipRadixPrefix(s) == s;
    assert LeadingHexDigits(s[1..]) == "";
    assert LeadingHexDigits(s) == [c0];
    HexValueOneDigit(c0);
  }

  /** A sign followed by a digit reads as the signed digit. */
  lemma ParseIntHexSignedDigit(c0: char, c1: char)
    requires (c0 == '+' || c0 == '-') && IsHexDigit(c1)
    ensures ParseIntHex([c0, c1]) == Some(if c0 == '-' then -(DigitValue(c1) as int) else DigitValue(c1))
  {
    var s := [c0, c1];
    assert !IsJsWhitespace(c0);
    assert TrimStart(s) == s;
    assert SkipSign(s) == [c1];
    HexDigitIsNotSpaceOrSign(c1);
    assert SkipRadixPrefix([c1]) == [c1];
    assert LeadingHexDigits([c1]) == [c1] by {
      LeadingHexDigitsOfDigits([c1]);
    }
    HexValueOneDigit(c1);
  }

  /** A typed-array store: the value modulo 256 (ECMAScript ToUint8). */
  function ToUint8(x: int): (b: Byte)
    ensures 0 <= x < 256 ==> b == x
    ensures (b - x) % 256 == 0
  {
    x % 256
  }

  /** The chunk `str.substr(2 * k, 2)`: two characters, or one at an odd end. */
  function Chunk(str: string, k: nat): string
    requires 2 * k < |str|
  {
    if 2 * k + 2 <= |str| then str[2 * k..2 * k + 2] else str[2 * k..]
  }

  /** The loop of hexToUint8Array over the body, chunk by chunk: every chunk
      `str.substr(i, 2)` is parsed and a NaN fails, but only |str| / 2 bytes
      are kept, since the array is allocated with length str.length / 2,
      truncated, and a store past its end is dropped. */
  function ParseChunks(str: string): (r: Result<seq<Byte>>)
    ensures r.Ok? ==> |r.value| == |str| / 2
    ensures r.Err? ==> r.error == InvalidHexString
    decreases |str|
  {
    if |str| == 0 then Ok([])
    else if |str| == 1 then
      if ParseIntHex(str).None? then Err(InvalidHexString) else Ok([])
    else
      match ParseIntHex(str[..2])
      case None => Err(InvalidHexString)
      case Some(v) =>
        match ParseChunks(str[2..])
        case Err(e) => Err(e)
        case Ok(rest) => Ok([ToUint8(v)] + rest)
  }

  lemma ChunkShift(str: string, k: nat)
    requires 2 * k + 2 < |str|
    ensures Chunk(str, k + 1) == Chunk(str[2..], k)
  {
  }

  /** The parse fails exactly when some chunk is NaN. */
  lemma {:induction false} ParseChunksFailsIffNaNChunk(str: string)
    ensures ParseChunks(str).Err? <==> exists k: nat | 2 * k < |str| :: ParseIntHex(Chunk(str, k)).None?
    decreases |str|
  {
    if |str| == 1 {
      assert Chunk(str, 0) == str;
    } else if |str| >= 2 {
      var tail := str[2..];
      ParseChunksFailsIffNaNChunk(tail);
      assert Chunk(str, 0) == str[..2];
      ParseChunksStep(str, str[..2]);
      if exists k: nat | 2 * k < |tail| :: ParseIntHex(Chunk(tail, k)).None? {
        var k: nat :| 2 * k < |tail| && ParseIntHex(Chunk(tail, k)).None?;
        ChunkShift(str, k);
      }
      if exists k: nat | 2 * k < |str| :: ParseIntHex(Chunk(str, k)).None? {
        var k: nat :| 2 * k < |str| && ParseIntHex(Chunk(str, k)).None?;
        if k > 0 {
          ChunkShift(str, k - 1);
        }
      }
    }
  }

  /** On success byte k is chunk k's value stored into a Uint8Array. */
  lemma {:induction false} ParseChunksValues(str: string)
    requires ParseChunks(str).Ok?
    ensures forall k: nat | k < |str| / 2 ::
      ParseIntHex(Chunk(str, k)).Some? && ParseChunks(str).value[k] == ToUint8(ParseIntHex(Chunk(str, k)).value)
    decreases |str|
  {
    if |str| >= 2 {
      var tail := str[2..];
      assert Chunk(str, 0) == str[..2];
      ParseChunksStep(str, str[..2]);
      ParseChunksValues(tail);
      var r := ParseChunks(str).value;
      forall k: nat | k < |str| / 2
        ensures ParseIntHex(Chunk(str, k)).Some? && r[k] == ToUint8(ParseIntHex(Chunk(str, k)).value)
      {
        if k > 0 {
          ChunkShift(str, k - 1);
          assert r[k] == ParseChunks(tail).value[k - 1];
        }
      }
    }
  }

  /** hexToUint8Array as written: strip a "0x" prefix and parse chunk by
      chunk. Half the body's length in bytes, rounded down, or 'Invalid
      hexString'. */
  function HexToBytesAsWritten(hexString: string): (r: Result<seq<Byte>>)
    ensures r.Ok? ==> |r.value| == |StripHexPrefix(hexString)| / 2
    ensures r.Err? ==> r.error == InvalidHexString
  {
    ParseChunks(StripHexPrefix(hexString))
  }

  /** Bytes already written in front of the outcome for the rest. */
  function Prepend(prefix: seq<Byte>, rest: Result<seq<Byte>>): Result<seq<Byte>> {
    match rest
    case Err(e) => Err(e)
    case Ok(tail) => Ok(prefix + tail)
  }

  lemma PrependNothing(r: Result<seq<Byte>>)
    ensures Prepend([], r) == r
  {
    if r.Ok? {
      assert [] + r.value == r.value;
    }
  }

  /** One iteration of the loop, seen from the unparsed suffix. */
  lemma ParseChunksStep(t: string, chunk: string)
    requires |t| >= 1 && chunk == (if |t| >= 2 then t[..2] else t)
    ensures ParseIntHex(chunk).None? ==> ParseChunks(t) == Err(InvalidHexString)
    ensures ParseIntHex(chunk).Some? && |t| >= 2 ==>
      ParseChunks(t) == Prepend([ToUint8(ParseIntHex(chunk).value)], ParseChunks(t[2..]))
    ensures ParseIntHex(chunk).Some? && |t| == 1 ==> ParseChunks(t) == Ok([])
  {
  }

  lemma PrependTwice(a: seq<Byte>, b: seq<Byte>, r: Result<seq<Byte>>)
    ensures Prepend(a, Prepend(b, r)) == Prepend(a + b, r)
  {
    if r.Ok? {
      assert a + (b + r.value) == (a + b) + r.value;
    }
  }

  lemma DropTwice(str: string, i: nat)
    requires i + 2 <= |str|
    ensures str[i..][2..] == str[i + 2..]
  {
  }

  lemma StoreExtends(a: seq<Byte>, k: nat, b: Byte)
    requires k < |a|
    ensures a[k := b][..k + 1] == a[..k] + [b]
  {
  }

  /** The loop of hexToUint8Array, index by index. */
  method HexToUint8Array(hexString: string) returns (r: Result<seq<Byte>>)
    ensures r == HexToBytesAsWritten(hexString)
    ensures r.Ok? ==> |r.value| == |StripHexPrefix(hexString)| / 2
  {
    r := ChunkLoop(StripHexPrefix(hexString));
  }

  /** What the loop knows after k chunks: the bytes stored so far, followed
      by whatever the unparsed rest yields, make up the whole result. */
  ghost predicate LoopInvariant(str: string, k: nat, arrayBuffer: seq<Byte>) {
    && |arrayBuffer| == |str| / 2
    && (2 * k <= |str| ==> k <= |str| / 2 && ParseChunks(str) == Prepend(arrayBuffer[..k], ParseChunks(str[2 * k..])))
    && (2 * k > |str| ==> ParseChunks(str) == Ok(arrayBuffer))
  }

  /** One parsed chunk keeps the invariant. */
  lemma LoopStep(str: string, k: nat, arrayBuffer: seq<Byte>, v: int)
    requires 2 * k < |str| && LoopInvariant(str, k, arrayBuffer)
    requires ParseIntHex(Chunk(str, k)) == Some(v)
    ensures k < |arrayBuffer| ==> LoopInvariant(str, k + 1, arrayBuffer[k := ToUint8(v)])
    ensures k >= |arrayBuffer| ==> LoopInvariant(str, k + 1, arrayBuffer)
  {
    var t := str[2 * k..];
    ParseChunksStep(t, Chunk(str, k));
    if k < |arrayBuffer| {
      StoredStep(str, k, arrayBuffer, ToUint8(v));
    } else {
      LastStep(str, k, arrayBuffer);
    }
  }

  /** A full chunk: its byte is stored at index k. */
  lemma StoredStep(str: string, k: nat, arrayBuffer: seq<Byte>, b: Byte)
    requires 2 * k < |str| && k < |arrayBuffer| && |arrayBuffer| == |str| / 2
    requires ParseChunks(str) == Prepend(arrayBuffer[..k], ParseChunks(str[2 * k..]))
    requires ParseChunks(str[2 * k..]) == Prepend([b], ParseChunks(str[2 * k..][2..]))
    ensures LoopInvariant(str, k + 1, arrayBuffer[k := b])
  {
    var next := arrayBuffer[k := b];
    HalfBound(|str|, k);
    var rest := ParseChunks(str[2 * k + 2..]);
    StoredPrefix(str, k, arrayBuffer, b, rest);
    assert str[2 * (k + 1)..] == str[2 * k + 2..];
  }

  lemma HalfBound(n: nat, k: nat)
    requires k < n / 2
    ensures 2 * k + 2 <= n && k + 1 <= n / 2
  {
  }

  /** The stored bytes grow by the chunk's byte and the unparsed rest
      shrinks by the chunk. */
  lemma StoredPrefix(str: string, k: nat, arrayBuffer: seq<Byte>, b: Byte, rest: Result<seq<Byte>>)
    requires 2 * k + 2 <= |str| && k < |arrayBuffer|
    requires rest == ParseChunks(str[2 * k + 2..])
    requires ParseChunks(str) == Prepend(arrayBuffer[..k], ParseChunks(str[2 * k..]))
    requires ParseChunks(str[2 * k..]) == Prepend([b], ParseChunks(str[2 * k..][2..]))
    ensures ParseChunks(str) == Prepend(arrayBuffer[k := b][..k + 1], rest)
  {
    DropTwice(str, 2 * k);
    PrependTwice(arrayBuffer[..k], [b], rest);
    StoreExtends(arrayBuffer, k, b);
  }

  /** The lone last character of an odd-length string: nothing is stored. */
  lemma LastStep(str: string, k: nat, arrayBuffer: seq<Byte>)
    requires 2 * k < |str| && k >= |arrayBuffer| && |arrayBuffer| == |str| / 2
    requires ParseChunks(str) == Prepend(arrayBuffer[..k], ParseChunks(str[2 * k..]))
    requires ParseChunks(str[2 * k..]) == Ok([])
    ensures LoopInvariant(str, k + 1, arrayBuffer)
  {
    assert arrayBuffer[..k] == arrayBuffer;
    assert arrayBuffer + [] == arrayBuffer;
  }

  /** A NaN chunk makes the whole parse fail. */
  lemma LoopFail(str: string, k: nat, arrayBuffer: seq<Byte>)
    requires 2 * k < |str| && LoopInvariant(str, k, arrayBuffer)
    requires ParseIntHex(Chunk(str, k)).None?
    ensures ParseChunks(str) == Err(InvalidHexString)
  {
    var t := str[2 * k..];
    ParseChunksStep(t, Chunk(str, k));
  }

  method ChunkLoop(str: string) returns (r: Result<seq<Byte>>)
    ensures r == ParseChunks(str)
  {
    var arrayBuffer: seq<Byte> := seq(|str| / 2, _ => 0);
    var i := 0;
    ghost var k := 0;
    assert arrayBuffer[..0] == [] && str[0..] == str;
    PrependNothing(ParseChunks(str));
    while i < |str|
      invariant i == 2 * k && i <= |str| + 1
      invariant LoopInvariant(str, k, arrayBuffer)
      decreases |str| - i
    {
      assert i / 2 == k;
      var chunk := if i + 2 <= |str| then str[i..i + 2] else str[i..];
      assert chunk == Chunk(str, k);
      var byteValue := ParseIntHex(chunk);
      if byteValue.None? {
        LoopFail(str, k, arrayBuffer);
        return Err(InvalidHexString);
      }
      LoopStep(str, k, arrayBuffer, byteValue.value);
      if i / 2 < |arrayBuffer| {
        arrayBuffer := arrayBuffer[i / 2 := ToUint8(byteValue.value)];
      }
      i := i + 2;
      k := k + 1;
    }
    if i == |str| {
      assert arrayBuffer[..k] == arrayBuffer;
      assert str[i..] == "";
      assert arrayBuffer + [] == arrayBuffer;
    }
    r := Ok(arrayBuffer);
  }

  /** The decoder hexToUint8Array is evidently meant to be: an optional "0x"
      prefix, then an even number of hex digits, two per byte; anything else
      is InvalidHexString. */
  function HexToBytes(hexString: string): (r: Result<seq<Byte>>)
    ensures r.Ok? <==> |StripHexPrefix(hexString)| % 2 == 0 && AllHex(StripHexPrefix(hexString))
    ensures r.Ok? ==> |r.value| == |StripHexPrefix(hexString)| / 2
    ensures r.Err? ==> r.error == InvalidHexString
  {
    var body := StripHexPrefix(hexString);
    if |body| % 2 == 0 && AllHex(body) then
      DecodeLength(body);
      Ok(NodeHexDecode(body))
    else Err(InvalidHexString)
  }

  /** What the strict decoder returns: byte i is the value of digit pair i,
      and the bytes read big-endian are the number the digits denote. */
  lemma HexToBytesMeaning(hexString: string)
    requires HexToBytes(hexString).Ok?
    ensures var body := StripHexPrefix(hexString);
      var r := HexToBytes(hexString).value;
      && (forall i | 0 <= i < |r| ::
            r[i] == DigitValue(body[2 * i]) * 16 + DigitValue(body[2 * i + 1]))
      && BigEndian(r) == HexValue(body)
  {
    var body := StripHexPrefix(hexString);
    var r := HexToBytes(hexString).value;
    forall i | 0 <= i < |r|
      ensures r[i] == DigitValue(body[2 * i]) * 16 + DigitValue(body[2 * i + 1])
    {
      DecodedAt(body, i);
    }
    HexValueOfDecode(body);
  }

  /** toHexString output, with or without prefix, decodes to the same bytes. */
  lemma HexRoundTrip(bytes: seq<Byte>, withPrefix: bool)
    ensures HexToBytes(ToHexString(bytes, withPrefix)) == Ok(bytes)
  {
    StripToHexString(bytes, withPrefix);
    DecodeHexBody(bytes);
  }

  lemma {:induction false} ChunksOfValidHex(str: string)
    requires |str| % 2 == 0 && AllHex(str)
    ensures ParseChunks(str) == Ok(NodeHexDecode(str))
    decreases |str|
  {
    if |str| > 0 {
      var pair := str[..2];
      assert pair == [str[0], str[1]];
      HexValueTwoDigits(str[0], str[1]);
      ParseIntHexOfDigits(pair);
      DecodeStep(str);
      ChunksOfValidHex(str[2..]);
    }
  }

  /** Where the strict decoder succeeds, hexToUint8Array as written returns the same bytes. */
  lemma AsWrittenAgreesOnValidHex(hexString: string)
    requires HexToBytes(hexString).Ok?
    ensures HexToBytesAsWritten(hexString) == HexToBytes(hexString)
  {
    ChunksOfValidHex(StripHexPrefix(hexString));
  }

  /** The decoder hexToUint8Array is evidently meant to be when the body has
      an odd number of digits: like toBuffer (idena/script.js:60), pad it
      with one leading '0' instead of losing the last digit, so "0xabc" is
      [0x0a, 0xbc]. A non-hex character is still InvalidHexString. */
  function HexToBytesPadded(hexString: string): (r: Result<seq<Byte>>)
    ensures r.Ok? <==> AllHex(StripHexPrefix(hexString))
    ensures r.Ok? ==> |r.value| == (|StripHexPrefix(hexString)| + 1) / 2
    ensures r.Err? ==> r.error == InvalidHexString
  {
    var body := StripHexPrefix(hexString);
    if AllHex(body) then
      PadToEvenKeepsValue(body);
      DecodeLength(PadToEven(body));
      Ok(NodeHexDecode(PadToEven(body)))
    else Err(InvalidHexString)
  }

  /** What the padding decoder returns: the bytes read big-endian are the
      number the digits denote, so no digit is lost. */
  lemma PaddedValue(hexString: string)
    requires HexToBytesPadded(hexString).Ok?
    ensures BigEndian(HexToBytesPadded(hexString).value) == HexValue(StripHexPrefix(hexString))
  {
    var body := StripHexPrefix(hexString);
    PadToEvenKeepsValue(body);
    HexValueOfDecode(PadToEven(body));
  }

  /** On an even body the padding decoder is the strict one, and so agrees
      with hexToUint8Array as written wherever that body is valid hex. */
  lemma PaddedAgreesOnEvenHex(hexString: string)
    requires |StripHexPrefix(hexString)| % 2 == 0
    ensures HexToBytesPadded(hexString) == HexToBytes(hexString)
    ensures AllHex(StripHexPrefix(hexString)) ==>
      HexToBytesAsWritten(hexString) == HexToBytesPadded(hexString)
  {
    if AllHex(StripHexPrefix(hexString)) {
      AsWrittenAgreesOnValidHex(hexString);
    }
  }

  /** On an odd body the padding decoder reads the digits as if a '0' led
      them, where hexToUint8Array as written drops the last one. */
  lemma PaddedOddBody(body: string)
    requires AllHex(body) && |body| % 2 == 1
    ensures HexToBytesPadded("0x" + body) == HexToBytes("0x0" + body)
    ensures HexToBytesAsWritten("0x" + body).Ok?
    ensures |HexToBytesAsWritten("0x" + body).value| + 1 == |HexToBytesPadded("0x" + body).value|
  {
    assert ("0x" + body)[..2] == "0x" && ("0x" + body)[2..] == body;
    assert ("0x0" + body)[..2] == "0x" && ("0x0" + body)[2..] == "0" + body;
    OddLengthTruncated(body);
    DecodeLength(body[..|body| - 1]);
  }

  /** toHexString(b, true) is the only "0x" string of lower-case digits that
      the strict decoder reads as b. */
  lemma CanonicalHexIsToHexString(s: string, b: seq<Byte>)
    requires IsHexPrefixed(s) && AllLowerHex(StripHexPrefix(s)) && HexToBytes(s) == Ok(b)
    ensures s == ToHexString(b, true)
  {
    var body := StripHexPrefix(s);
    assert s == s[..2] + body;
    HexBodyOfDecode(body);
    StripToHexString(b, true);
    var out := ToHexString(b, true);
    assert out == out[..2] + out[2..];
  }

  /** A chunk that starts with a non-digit fails both decoders: "0xzz". */
  lemma NonHexChunkRejected()
    ensures HexToBytesAsWritten("0xzz") == Err(InvalidHexString)
    ensures HexToBytes("0xzz") == Err(InvalidHexString)
  {
    var s := "0xzz";
    assert s[..2] == "0x" && s[2..] == "zz";
    assert !IsHexDigit('z') && !IsJsWhitespace('z');
    assert "zz"[..2] == "zz";
    ParseChunksStep("zz", "zz");
  }

  // Inputs on which hexToUint8Array as written and the strict decoder differ.

  /** A chunk whose second character is not a hex digit is read as its first
      digit alone: "0x1g" gives [0x01]. */
  lemma PartialChunkAccepted(c0: char, c1: char)
    requires IsHexDigit(c0) && !IsHexDigit(c1) && !(c0 == '0' && (c1 == 'x' || c1 == 'X'))
    ensures HexToBytesAsWritten("0x" + [c0, c1]) == Ok([DigitValue(c0)])
    ensures HexToBytes("0x" + [c0, c1]) == Err(InvalidHexString)
  {
    var str := [c0, c1];
    assert ("0x" + str)[..2] == "0x" && ("0x" + str)[2..] == str;
    assert str[..2] == str && str[2..] == "";
    ParseIntHexOneDigitThenJunk(c0, c1);
    ParseChunksStep(str, str);
    assert ParseChunks(str[2..]) == Ok([]);
    assert [ToUint8(DigitValue(c0))] + [] == [DigitValue(c0)];
  }

  /** A minus sign before one digit is accepted and the negative value wraps
      modulo 256: "0x-1" gives [0xff]. */
  lemma SignedChunkAccepted(c1: char)
    requires IsHexDigit(c1)
    ensures HexToBytesAsWritten("0x-" + [c1]) == Ok([ToUint8(-(DigitValue(c1) as int))])
    ensures DigitValue(c1) > 0 ==> ToUint8(-(DigitValue(c1) as int)) == 256 - DigitValue(c1)
    ensures HexToBytes("0x-" + [c1]) == Err(InvalidHexString)
  {
    var str := ['-', c1];
    assert "0x-" + [c1] == "0x" + str;
    assert ("0x" + str)[..2] == "0x" && ("0x" + str)[2..] == str;
    assert str[..2] == str && str[2..] == "";
    ParseIntHexSignedDigit('-', c1);
    ParseChunksStep(str, str);
    assert ParseChunks(str[2..]) == Ok([]);
    assert [ToUint8(-(DigitValue(c1) as int))] + [] == [ToUint8(-(DigitValue(c1) as int))];
    assert !IsHexDigit(str[0]);
  }

  /** An odd-length body silently loses its last digit: "0xabc" gives [0xab]. */
  lemma OddLengthTruncated(body: string)
    requires AllHex(body) && |body| % 2 == 1
    ensures HexToBytesAsWritten("0x" + body) == Ok(NodeHexDecode(body[..|body| - 1]))
    ensures HexToBytes("0x" + body) == Err(InvalidHexString)
  {
    assert ("0x" + body)[..2] == "0x" && ("0x" + body)[2..] == body;
    OddChunks(body);
  }

  /** One hex digit after valid hex is read and then lost: the result is that
      of the valid hex alone, so "0x0102" + "3" decodes as "0x0102". */
  lemma TrailingDigitIgnored(body: string, c: char)
    requires AllHex(body) && |body| % 2 == 0 && IsHexDigit(c)
    ensures HexToBytesAsWritten("0x" + (body + [c])) == HexToBytes("0x" + body)
  {
    var odd := body + [c];
    assert AllHex(odd) by {
      assert forall i | 0 <= i < |odd| :: odd[i] == if i < |body| then body[i] else c;
    }
    OddLengthTruncated(odd);
    assert odd[..|odd| - 1] == body;
    assert ("0x" + body)[..2] == "0x" && ("0x" + body)[2..] == body;
  }

  lemma {:induction false} OddChunks(str: string)
    requires AllHex(str) && |str| % 2 == 1
    ensures ParseChunks(str) == Ok(NodeHexDecode(str[..|str| - 1]))
    decreases |str|
  {
    if |str| == 1 {
      ParseIntHexOfDigits(str);
      assert str[..0] == "";
    } else {
      AllHexDrop(str, 2);
      OddChunks(str[2..]);
      OddStep(str, str[0], str[1], str[2..]);
    }
  }

  /** The first pair in front of what the rest of an odd body gives. */
  lemma OddStep(str: string, c0: char, c1: char, tail: string)
    requires |str| >= 3 && str[0] == c0 && str[1] == c1 && tail == str[2..]
    requires IsHexDigit(c0) && IsHexDigit(c1)
    requires ParseChunks(tail) == Ok(NodeHexDecode(tail[..|tail| - 1]))
    ensures ParseChunks(str) == Ok(NodeHexDecode(str[..|str| - 1]))
  {
    var v := DigitValue(c0) * 16 + DigitValue(c1);
    ValidPairStep(str, c0, c1);
    DecodeDropLast(str);
    assert tail[..|tail| - 1] == str[2..][..|str| - 3];
    PrependOk([v], ParseChunks(str), ParseChunks(tail), NodeHexDecode(tail[..|tail| - 1]),
      NodeHexDecode(str[..|str| - 1]));
  }

  lemma PrependOk(head: seq<Byte>, whole: Result<seq<Byte>>, part: Result<seq<Byte>>, rest: seq<Byte>, all: seq<Byte>)
    requires whole == Prepend(head, part) && part == Ok(rest) && all == head + rest
    ensures whole == Ok(all)
  {
  }

  lemma AllHexDrop(s: string, k: nat)
    requires AllHex(s) && k <= |s|
    ensures AllHex(s[k..])
  {
    assert forall i | 0 <= i < |s| - k :: s[k..][i] == s[k + i];
  }

  /** A leading pair of hex digits is parsed as the byte it spells. */
  lemma ValidPairStep(str: string, c0: char, c1: char)
    requires |str| >= 2 && str[0] == c0 && str[1] == c1 && IsHexDigit(c0) && IsHexDigit(c1)
    ensures ParseChunks(str) == Prepend([DigitValue(c0) * 16 + DigitValue(c1)], ParseChunks(str[2..]))
  {
    assert str[..2] == [c0, c1];
    ParsePair(c0, c1);
  }

  /** Two hex digits parse as the byte they spell. */
  lemma ParsePair(c0: char, c1: char)
    requires IsHexDigit(c0) && IsHexDigit(c1)
    ensures ParseIntHex([c0, c1]) == Some(DigitValue(c0) * 16 + DigitValue(c1))
  {
    HexValueTwoDigits(c0, c1);
    ParseIntHexOfDigits([c0, c1]);
  }

  lemma DecodeDropLast(str: string)
    requires |str| >= 3 && IsHexDigit(str[0]) && IsHexDigit(str[1])
    ensures NodeHexDecode(str[..|str| - 1]) ==
      [DigitValue(str[0]) * 16 + DigitValue(str[1])] + NodeHexDecode(str[2..][..|str| - 3])
  {
    var init := str[..|str| - 1];
    assert init[0] == str[0] && init[1] == str[1];
    DecodeStep(init);
    assert init[2..] == str[2..][..|str| - 3];
  }
}

=== FILE: messages.dfy ===
/** The protobuf messages the codec builds (ProtoTransaction and its Data),
    as plain records, and the external primitives it calls: keccak-256,
    secp256k1 and protobuf framing, all given as parameters. */
module Messages {
  import opened Results
  import opened Hex

  /** ProtoTransaction.Data with proto3 semantics: a zero number or an empty
      byte string is the same as an absent field. */
  datatype Data = Data(
    nonce: nat,
    epoch: nat,
    txType: nat,
    to: seq<Byte>,
    amount: seq<Byte>,
    maxFee: seq<Byte>,
    tips: seq<Byte>,
    payload: seq<Byte>)

  /** ProtoTransaction: the Data sub-message, which may be missing on the
      wire, and the signature bytes (empty when absent). */
  datatype ProtoTransaction = ProtoTransaction(data: Option<Data>, signature: seq<Byte>)

  /** What secp256k1.ecdsaSign returns: the compact signature and the recovery id. */
  datatype EcdsaOutput = EcdsaOutput(signature: seq<Byte>, recid: Byte)

  /** The library functions the codec calls and this model does not define.
      `None` stands for a call that throws. */
  datatype Primitives = Primitives(
    keccak256: seq<Byte> -> seq<Byte>,
    publicKeyCreate: seq<Byte> -> Option<seq<Byte>>,
    ecdsaSign: (seq<Byte>, seq<Byte>) -> Option<EcdsaOutput>,
    serializeData: Data -> seq<Byte>,
    serialize: ProtoTransaction -> seq<Byte>,
    deserialize: seq<Byte> -> Option<ProtoTransaction>)

  /** The output sizes of the cryptographic primitives: a 32-byte digest, a
      65-byte uncompressed public key (publicKeyCreate with compressed =
      false), a 64-byte signature and a recovery id below 4. */
  ghost predicate WellBehaved(p: Primitives) {
    && (forall m :: |p.keccak256(m)| == 32)
    && (forall k | p.publicKeyCreate(k).Some? :: |p.publicKeyCreate(k).value| == 65)
    && (forall h, k | p.ecdsaSign(h, k).Some? ::
          |p.ecdsaSign(h, k).value.signature| == 64 && p.ecdsaSign(h, k).value.recid < 4)
  }

  /** deserializeBinary reads back what serializeBinary wrote. */
  ghost predicate FaithfulFraming(p: Primitives) {
    forall m :: p.deserialize(p.serialize(m)) == Some(m)
  }
}

=== FILE: numbers.dfy ===
/** Unsigned integers as minimal big-endian bytes: intToHex, intToBuffer and
    bufferToInt of idena/script.js. */
module Numbers {
  import opened Results
  import opened Hex
  import opened HexParse

  /** No leading zero byte; zero is the empty sequence. */
  predicate Minimal(bytes: seq<Byte>) {
    |bytes| == 0 || bytes[0] != 0
  }

  /** intToHex: the digits of n padded to even length; a negative n throws. */
  function IntToHex(n: int): (r: Result<string>)
    ensures r.Err? <==> n < 0
    ensures r.Err? ==> r.error == NegativeInteger
    ensures r.Ok? ==> |r.value| % 2 == 0 && AllLowerHex(r.value) && |r.value| >= 2
  {
    if n < 0 then Err(NegativeInteger)
    else
      var hex := NatToHex(n);
      PaddedLowerHex(hex);
      Ok(if |hex| % 2 == 1 then "0" + hex else hex)
  }

  lemma PaddedLowerHex(hex: string)
    requires AllLowerHex(hex) && |hex| >= 1
    ensures var r := if |hex| % 2 == 1 then "0" + hex else hex;
      |r| % 2 == 0 && AllLowerHex(r) && |r| >= 2
  {
    var z := "0" + hex;
    assert forall i | 1 <= i < |z| :: z[i] == hex[i - 1];
  }

  /** The even-length digits of intToHex(n) still denote n. */
  lemma IntToHexDenotes(n: nat)
    ensures IntToHex(n).Ok? && AllHex(IntToHex(n).value) && HexValue(IntToHex(n).value) == n
  {
    PadToEvenKeepsValue(NatToHex(n));
  }

  /** bufferToInt: the empty buffer is 0, any other is parseInt of its hex digits. */
  function BytesToNat(buf: seq<Byte>): (n: nat)
    ensures n == BigEndian(buf)
  {
    if |buf| == 0 then 0
    else
      var digits := HexBody(buf);
      ParseIntHexOfDigits(digits);
      HexValueOfHexBody(buf);
      ParseIntHex(digits).value
  }

  /** intToBuffer: Buffer.from(intToHex(n), 'hex'). */
  function IntToBuffer(n: int): (r: Result<seq<Byte>>)
    ensures r.Err? <==> n < 0
    ensures r.Err? ==> r.error == NegativeInteger
    ensures r.Ok? ==> |r.value| >= 1
  {
    var hex :- IntToHex(n);
    Ok(NodeHexDecode(hex))
  }

  /** intToBuffer(n) denotes n; it is minimal for n > 0, and [0] for n = 0. */
  lemma IntToBufferDenotes(n: nat)
    ensures IntToBuffer(n).Ok? && BigEndian(IntToBuffer(n).value) == n
    ensures n > 0 ==> Minimal(IntToBuffer(n).value)
    ensures n == 0 ==> IntToBuffer(n).value == [0]
  {
    IntToHexDenotes(n);
    HexValueOfDecode(IntToHex(n).value);
    LeadingByteOfPaddedHex(n);
  }

  lemma NonZeroDigit(c: char)
    requires IsLowerHexDigit(c) && c != '0'
    ensures DigitValue(c) > 0
  {
  }

  /** The first byte Buffer.from decodes from hex. */
  lemma FirstDecodedByte(hex: string)
    requires |hex| >= 2 && |hex| % 2 == 0 && AllHex(hex)
    ensures |NodeHexDecode(hex)| == |hex| / 2
    ensures NodeHexDecode(hex)[0] == DigitValue(hex[0]) * 16 + DigitValue(hex[1])
  {
    DecodeStep(hex);
  }

  /** The first byte of intToBuffer(n), n > 0, is not zero. */
  lemma LeadingByteOfPaddedHex(n: int)
    requires n >= 0
    ensures var hex := PadToEven(NatToHex(n));
      && |NodeHexDecode(hex)| == |hex| / 2 >= 1
      && (n > 0 ==> NodeHexDecode(hex)[0] != 0)
      && (n == 0 ==> NodeHexDecode(hex) == [0])
  {
    var digits := NatToHex(n);
    var hex := PadToEven(digits);
    assert AllHex(hex) by {
      PadToEvenKeepsValue(digits);
    }
    FirstDecodedByte(hex);
    if n == 0 {
      assert hex == "00";
    } else if |digits| % 2 == 1 {
      assert hex[1] == digits[0];
      NonZeroDigit(hex[1]);
    } else {
      assert hex[0] == digits[0];
      NonZeroDigit(hex[0]);
    }
  }

  /** intToBuffer of a value whose digits have even length decodes those digits. */
  lemma IntToBufferOfEvenDigits(n: nat, h: string)
    requires NatToHex(n) == h && |h| % 2 == 0
    ensures IntToBuffer(n) == Ok(NodeHexDecode(h))
  {
  }

  /** intToBuffer of a value whose digits have odd length decodes them after one '0'. */
  lemma IntToBufferOfOddDigits(n: nat, t: string)
    requires NatToHex(n) == t && |t| % 2 == 1
    ensures IntToBuffer(n) == Ok(NodeHexDecode("0" + t))
  {
  }

  /** The value of bytes whose digits are canonical prints back as those digits. */
  lemma DigitsOfCanonical(bytes: seq<Byte>)
    requires CanonicalHex(HexBody(bytes))
    ensures NatToHex(BigEndian(bytes)) == HexBody(bytes)
  {
    HexValueOfHexBody(bytes);
    NatToHexOfValue(HexBody(bytes));
  }

  /** The value of bytes whose digits are '0' then canonical digits prints as those digits. */
  lemma DigitsOfPadded(bytes: seq<Byte>, t: string)
    requires HexBody(bytes) == "0" + t && CanonicalHex(t)
    ensures NatToHex(BigEndian(bytes)) == t
  {
    HexValueOfHexBody(bytes);
    NatToHexOfValue(t);
    HexValueLeadingZero(t);
  }

  lemma HexBodyParity(bytes: seq<Byte>)
    ensures |HexBody(bytes)| % 2 == 0
    ensures |bytes| > 0 ==> |HexBody(bytes)[1..]| % 2 == 1
  {
  }

  /** A non-empty minimal byte sequence is what intToBuffer makes of its value. */
  lemma IntToBufferOfBigEndian(bytes: seq<Byte>)
    requires Minimal(bytes) && |bytes| > 0
    ensures BigEndian(bytes) > 0
    ensures IntToBuffer(BigEndian(bytes)) == Ok(bytes)
  {
    var n := BigEndian(bytes);
    var h := HexBody(bytes);
    HexBodyAt(bytes, 0);
    if bytes[0] >= 16 {
      assert h[0] != '0';
      DigitsOfCanonical(bytes);
      HexBodyParity(bytes);
      IntToBufferOfEvenDigits(n, h);
      assert NatToHex(n) != "0";
    } else {
      var t := h[1..];
      assert h == "0" + t;
      assert t[0] != '0';
      DigitsOfPadded(bytes, t);
      HexBodyParity(bytes);
      IntToBufferOfOddDigits(n, t);
      assert NatToHex(n) != "0";
    }
    DecodeHexBody(bytes);
  }

  /** Every minimal byte sequence is what intToBuffer makes of bufferToInt of
      it: with IntToBufferDenotes, a bijection between the naturals above
      zero and non-empty minimal byte sequences. */
  lemma IntToBufferOfValue(bytes: seq<Byte>)
    requires Minimal(bytes) && |bytes| > 0
    ensures BytesToNat(bytes) > 0
    ensures IntToBuffer(BytesToNat(bytes)) == Ok(bytes)
  {
    IntToBufferOfBigEndian(bytes);
  }

  /** Two minimal byte sequences with the same value are equal. */
  lemma MinimalIsUnique(a: seq<Byte>, b: seq<Byte>)
    requires Minimal(a) && Minimal(b) && BigEndian(a) == BigEndian(b)
    ensures a == b
  {
    if |a| > 0 && |b| > 0 {
      IntToBufferOfValue(a);
      IntToBufferOfValue(b);
    } else if |a| > 0 {
      IntToBufferOfValue(a);
    } else if |b| > 0 {
      IntToBufferOfValue(b);
    }
  }
}

=== FILE: results.dfy ===
/** Failure-compatible result types shared by the codec, and the failures it can raise. */
module Results {

  datatype Option<+T> = None | Some(value: T)

  /** Every way an operation of the codec can fail. The first three are the
      exceptions idena/script.js throws itself; the last three come from the
      libraries it calls. */
  datatype Error =
    | InvalidHexString   // hexToUint8Array: a chunk parses to NaN
    | NegativeInteger    // intToHex: "must be unsigned"
    | InvalidType        // toBuffer: a value of an unsupported type
    | InvalidKey         // the curve library rejects the private key
    | MalformedFrame     // the message library cannot deserialize the bytes
    | MissingData        // the decoded message has no Data sub-message

  datatype Result<+T> = Ok(value: T) | Err(error: Error) {

    predicate IsFailure() {
      Err?
    }

    function PropagateFailure<U>(): Result<U>
      requires Err?
    {
      Err(error)
    }

    function Extract(): T
      requires Ok?
    {
      value
    }
  }
}

=== FILE: transaction.dfy ===
/** The Transaction class's fields, its constructor defaults and
    _createProtoTxData, the builder of the signing pre-image
    (idena/script.js:101-112, 181-203). */
module Transactions {
  import opened Results
  import opened Hex
  import opened Numbers
  import opened Values
  import opened Messages

  /** A transaction as the class holds it. nonce, epoch and type are
      non-negative integers; the other fields keep whatever value they were
      given and are normalized by toBuffer only when the Data is built. */
  datatype Transaction = Transaction(
    nonce: nat,
    epoch: nat,
    txType: nat,
    to: Value,
    amount: Value,
    maxFee: Value,
    tips: Value,
    payload: Value,
    signature: Value)

  /** `x || d`: x when truthy, the default otherwise. */
  function OrElse(x: Value, d: Value): Value {
    if Truthy(x) then x else d
  }

  function OrZero(x: Option<nat>): nat {
    if x.Some? then x.value else 0
  }

  /** The constructor. An omitted argument is None for the integer fields
      and Undefined for the others; every field but `to` is replaced by a
      default when the argument is falsy. The defaults never change what a
      field means to the Data builder: a field is truthy exactly when its
      argument is, and the payload default "0x" normalizes to no bytes. */
  function NewTransaction(nonce: Option<nat>, epoch: Option<nat>, txType: Option<nat>,
                          to: Value, amount: Value, maxFee: Value, tips: Value,
                          payload: Value, signature: Value): (tx: Transaction)
    ensures nonce.Some? ==> tx.nonce == nonce.value
    ensures epoch.Some? ==> tx.epoch == epoch.value
    ensures txType.Some? ==> tx.txType == txType.value
    ensures nonce.None? ==> tx.nonce == 0
    ensures epoch.None? ==> tx.epoch == 0
    ensures txType.None? ==> tx.txType == 0
    ensures tx.to == to
    ensures Truthy(tx.amount) == Truthy(amount) && Truthy(tx.maxFee) == Truthy(maxFee)
    ensures Truthy(tx.tips) == Truthy(tips) && Truthy(tx.signature) == Truthy(signature)
    ensures Truthy(tx.payload) && ToBuffer(tx.payload) == (if Truthy(payload) then ToBuffer(payload) else Ok([]))
    ensures Truthy(amount) ==> tx.amount == amount
    ensures Truthy(maxFee) ==> tx.maxFee == maxFee
    ensures Truthy(tips) ==> tx.tips == tips
    ensures Truthy(payload) ==> tx.payload == payload
    ensures Truthy(signature) ==> tx.signature == signature
    ensures !Truthy(amount) ==> tx.amount == Num(0)
    ensures !Truthy(maxFee) ==> tx.maxFee == Num(0)
    ensures !Truthy(tips) ==> tx.tips == Num(0)
    ensures !Truthy(payload) ==> tx.payload == Str("0x")
    ensures !Truthy(signature) ==> tx.signature == Null
  {
    Transaction(OrZero(nonce), OrZero(epoch), OrZero(txType), to,
      OrElse(amount, Num(0)), OrElse(maxFee, Num(0)), OrElse(tips, Num(0)),
      OrElse(payload, Str("0x")), OrElse(signature, Null))
  }

  /** One optional bytes field of the Data: toBuffer of the value when it
      is truthy, absent (empty) otherwise. The truthiness test only matters
      for `false`, which toBuffer would reject: every other falsy value
      already normalizes to no bytes. */
  function FieldBytes(v: Value): (r: Result<seq<Byte>>)
    ensures r.Err? <==> Rejected(v)
    ensures !Truthy(v) ==> r == Ok([])
    ensures !v.Bool? ==> r == ToBuffer(v)
  {
    if Truthy(v) then ToBuffer(v) else Ok([])
  }

  /** A truthy value toBuffer throws on: true, a plain object, a negative number. */
  predicate Rejected(v: Value) {
    v == Bool(true) || v.Object? || (v.Num? && v.n < 0)
  }

  /** The error toBuffer throws on a rejected value. */
  function RejectionError(v: Value): Error {
    if v.Num? then NegativeInteger else InvalidType
  }

  /** The five optional fields in the order _createProtoTxData sets them. */
  function OptionalFields(tx: Transaction): seq<Value> {
    [tx.to, tx.amount, tx.maxFee, tx.tips, tx.payload]
  }

  /** The first rejected value of a sequence, if any. */
  function FirstRejected(vs: seq<Value>): (v: Value)
    requires exists w <- vs :: Rejected(w)
    ensures v in vs && Rejected(v)
    ensures exists i | 0 <= i < |vs| :: vs[i] == v && forall j | 0 <= j < i :: !Rejected(vs[j])
  {
    if Rejected(vs[0]) then vs[0]
    else
      assert exists w <- vs[1..] :: Rejected(w) by {
        var w :| w in vs && Rejected(w);
        assert w in vs[1..] by {
          var k :| 0 <= k < |vs| && vs[k] == w;
          assert vs[1..][k - 1] == w;
        }
      }
      var v := FirstRejected(vs[1..]);
      assert forall j | 1 <= j < |vs| :: vs[j] == vs[1..][j - 1];
      v
  }

  /** _createProtoTxData: nonce, epoch and type always; to, amount, maxFee,
      tips and payload only when truthy. The first field toBuffer rejects
      makes the whole call throw. */
  function CreateData(tx: Transaction): (r: Result<Data>)
    ensures r.Ok? ==> r.value.nonce == tx.nonce && r.value.epoch == tx.epoch && r.value.txType == tx.txType
    ensures r.Ok? ==> var d := r.value;
      && (!Truthy(tx.to) ==> d.to == [])
      && (!Truthy(tx.amount) ==> d.amount == [])
      && (!Truthy(tx.maxFee) ==> d.maxFee == [])
      && (!Truthy(tx.tips) ==> d.tips == [])
      && (!Truthy(tx.payload) ==> d.payload == [])
  {
    var to :- FieldBytes(tx.to);
    var amount :- FieldBytes(tx.amount);
    var maxFee :- FieldBytes(tx.maxFee);
    var tips :- FieldBytes(tx.tips);
    var payload :- FieldBytes(tx.payload);
    Ok(Data(tx.nonce, tx.epoch, tx.txType, to, amount, maxFee, tips, payload))
  }

  /** The builder throws exactly when one of the five optional fields is a
      value toBuffer rejects, and the error is that of the first such field. */
  lemma CreateDataRejects(tx: Transaction)
    ensures CreateData(tx).Err? <==> exists v <- OptionalFields(tx) :: Rejected(v)
    ensures CreateData(tx).Err? ==> CreateData(tx).error == RejectionError(FirstRejected(OptionalFields(tx)))
  {
    var fs := OptionalFields(tx);
    if exists v <- fs :: Rejected(v) {
      var v := FirstRejected(fs);
      var i :| 0 <= i < |fs| && fs[i] == v && forall j | 0 <= j < i :: !Rejected(fs[j]);
      assert FieldBytes(v) == Err(RejectionError(v));
      if i == 0 {
        assert CreateData(tx) == Err(RejectionError(v));
      } else if i == 1 {
        assert !Rejected(fs[0]);
        assert CreateData(tx) == Err(RejectionError(v));
      } else if i == 2 {
        assert !Rejected(fs[0]) && !Rejected(fs[1]);
        assert CreateData(tx) == Err(RejectionError(v));
      } else if i == 3 {
        assert !Rejected(fs[0]) && !Rejected(fs[1]) && !Rejected(fs[2]);
        assert CreateData(tx) == Err(RejectionError(v));
      } else {
        assert !Rejected(fs[0]) && !Rejected(fs[1]) && !Rejected(fs[2]) && !Rejected(fs[3]);
        assert CreateData(tx) == Err(RejectionError(v));
      }
    } else {
      assert !Rejected(fs[0]) && !Rejected(fs[1]) && !Rejected(fs[2]) && !Rejected(fs[3]) && !Rejected(fs[4]);
    }
  }

  /** With no optional field rejected the Data is built. */
  lemma AcceptedFieldsBuild(tx: Transaction)
    requires !Rejected(tx.to) && !Rejected(tx.amount) && !Rejected(tx.maxFee)
    requires !Rejected(tx.tips) && !Rejected(tx.payload)
    ensures CreateData(tx).Ok?
  {
    assert FieldBytes(tx.to).Ok? && FieldBytes(tx.amount).Ok? && FieldBytes(tx.maxFee).Ok?;
    assert FieldBytes(tx.tips).Ok? && FieldBytes(tx.payload).Ok?;
  }

  /** The pre-image never reads the signature. */
  lemma DataIgnoresSignature(tx: Transaction, signature: Value)
    ensures CreateData(tx.(signature := signature)) == CreateData(tx)
  {
    assert OptionalFields(tx.(signature := signature)) == OptionalFields(tx);
  }

  /** A number field is stored as the minimal big-endian bytes of its value,
      which bufferToInt reads back; zero is stored as absent. */
  lemma NumericFieldStored(tx: Transaction)
    requires CreateData(tx).Ok?
    ensures var d := CreateData(tx).value;
      && (tx.amount.Num? ==> Minimal(d.amount) && BytesToNat(d.amount) == tx.amount.n)
      && (tx.maxFee.Num? ==> Minimal(d.maxFee) && BytesToNat(d.maxFee) == tx.maxFee.n)
      && (tx.tips.Num? ==> Minimal(d.tips) && BytesToNat(d.tips) == tx.tips.n)
  {
    var d := CreateData(tx).value;
    CreateDataFields(tx);
    if tx.amount.Num? { NumberFieldBytes(tx.amount); }
    if tx.maxFee.Num? { NumberFieldBytes(tx.maxFee); }
    if tx.tips.Num? { NumberFieldBytes(tx.tips); }
  }

  /** Unfolds a successful CreateData into its per-field FieldBytes results,
      so that proofs about the Data need not open the builder. */
  lemma CreateDataFields(tx: Transaction)
    requires CreateData(tx).Ok?
    ensures var d := CreateData(tx).value;
      && FieldBytes(tx.to) == Ok(d.to) && FieldBytes(tx.amount) == Ok(d.amount)
      && FieldBytes(tx.maxFee) == Ok(d.maxFee) && FieldBytes(tx.tips) == Ok(d.tips)
      && FieldBytes(tx.payload) == Ok(d.payload)
  {
  }

  lemma NumberFieldBytes(v: Value)
    requires v.Num? && FieldBytes(v).Ok?
    ensures v.n >= 0 && Minimal(FieldBytes(v).value) && BytesToNat(FieldBytes(v).value) == v.n
  {
    NumberRoundTrip(v.n);
  }

  /** Two transactions whose fields differ only in falsy values, or in the
      signature, build the same Data: an amount of 0 is the same as an
      omitted amount. */
  lemma FalsyFieldsAreOmitted(tx: Transaction, amount: Value, maxFee: Value, tips: Value, payload: Value)
    requires !Truthy(tx.amount) && !Truthy(amount)
    requires !Truthy(tx.maxFee) && !Truthy(maxFee)
    requires !Truthy(tx.tips) && !Truthy(tips)
    requires !Truthy(tx.payload) && !Truthy(payload)
    ensures CreateData(tx.(amount := amount, maxFee := maxFee, tips := tips, payload := payload)) == CreateData(tx)
  {
  }

  /** The constructor's defaults are invisible in the Data: building from
      the constructed transaction gives what building from the raw
      arguments (with 0 for omitted integers) gives, so an amount of 0 and an
      omitted amount sign the same bytes. */
  lemma ConstructorDefaultsInvisible(nonce: Option<nat>, epoch: Option<nat>, txType: Option<nat>,
                                     to: Value, amount: Value, maxFee: Value, tips: Value,
                                     payload: Value, signature: Value)
    ensures CreateData(NewTransaction(nonce, epoch, txType, to, amount, maxFee, tips, payload, signature))
         == CreateData(Transaction(OrZero(nonce), OrZero(epoch), OrZero(txType), to,
                                   amount, maxFee, tips, payload, signature))
  {
    var tx := NewTransaction(nonce, epoch, txType, to, amount, maxFee, tips, payload, signature);
    if !Truthy(payload) {
      assert ToBuffer(tx.payload) == Ok([]);
    }
  }

  /** Concretely: amount 0 and an omitted amount give the same Data. */
  lemma ZeroAmountIsOmitted(nonce: Option<nat>, epoch: Option<nat>, txType: Option<nat>,
                            to: Value, maxFee: Value, tips: Value, payload: Value, signature: Value)
    ensures CreateData(NewTransaction(nonce, epoch, txType, to, Num(0), maxFee, tips, payload, signature))
         == CreateData(NewTransaction(nonce, epoch, txType, to, Undefined, maxFee, tips, payload, signature))
  {
  }
}

=== FILE: values.dfy ===
/** The JavaScript values toBuffer (idena/script.js:56-79) accepts, their
    truthiness, and the conversion itself, plus exports.toHex. */
module Values {
  import opened Results
  import opened Hex
  import opened Numbers
  import opened HexParse

  /** A JavaScript value as far as toBuffer and the `if (x)` tests of the
      codec can tell values apart. Numbers are integers. */
  datatype Value =
    | Buffer(bytes: seq<Byte>)
    | Uint8Array(bytes: seq<Byte>)   // a typed array that is not a Buffer
    | Str(s: string)
    | Num(n: int)
    | Bool(b: bool)
    | Null
    | Undefined
    | Object                         // any other object: arrays, plain objects

  /** JavaScript truthiness: false, 0, "", null and undefined are falsy, and
      every other value, an empty buffer included, is truthy. */
  predicate Truthy(v: Value)
    ensures !Truthy(v) <==> v in {Bool(false), Num(0), Str(""), Null, Undefined}
  {
    match v
    case Buffer(_) => true
    case Uint8Array(_) => true
    case Str(s) => s != ""
    case Num(n) => n != 0
    case Bool(b) => b
    case Null => false
    case Undefined => false
    case Object => true
  }

  /** The UTF-8 bytes of one Unicode scalar value (RFC 3629, section 3). */
  function Utf8Char(c: char): (r: seq<Byte>)
    ensures 1 <= |r| <= 4
    ensures (c as int < 0x80) <==> |r| == 1
    ensures c as int < 0x80 ==> r == [c as int]
    ensures |r| > 1 ==> forall i | 1 <= i < |r| :: 0x80 <= r[i] < 0xC0
  {
    var x := c as int;
    if x < 0x80 then [x]
    else if x < 0x800 then [0xC0 + x / 64, 0x80 + x % 64]
    else if x < 0x10000 then [0xE0 + x / 4096, 0x80 + (x / 64) % 64, 0x80 + x % 64]
    else [0xF0 + x / 262144, 0x80 + (x / 4096) % 64, 0x80 + (x / 64) % 64, 0x80 + x % 64]
  }

  /** Buffer.from(s): the UTF-8 encoding of s. */
  function Utf8Encode(s: string): (r: seq<Byte>)
    ensures |s| <= |r| <= 4 * |s|
  {
    if |s| == 0 then [] else Utf8Char(s[0]) + Utf8Encode(s[1..])
  }

  /** UTF-8 encodes a string piecewise. */
  lemma {:induction false} Utf8EncodeAppend(a: string, b: string)
    ensures Utf8Encode(a + b) == Utf8Encode(a) + Utf8Encode(b)
  {
    if |a| == 0 {
      assert a + b == b;
    } else {
      assert (a + b)[0] == a[0] && (a + b)[1..] == a[1..] + b;
      Utf8EncodeAppend(a[1..], b);
    }
  }

  /** An ASCII string encodes to its own code points. */
  lemma {:induction false} Utf8EncodeAscii(s: string)
    requires forall i | 0 <= i < |s| :: s[i] as int < 0x80
    ensures |Utf8Encode(s)| == |s|
    ensures forall i | 0 <= i < |s| :: Utf8Encode(s)[i] == s[i] as int
  {
    if |s| > 0 {
      Utf8EncodeAscii(s[1..]);
    }
  }

  /** toBuffer: normalize a value to bytes. A "0x" string is decoded as hex,
      padded to even length; any other string is UTF-8; a number goes
      through intToBuffer, 0 giving no bytes; null and undefined give no
      bytes; Buffers and typed arrays keep their bytes; other types throw. */
  function ToBuffer(v: Value): (r: Result<seq<Byte>>)
    ensures r.Err? <==> v.Bool? || v.Object? || (v.Num? && v.n < 0)
    ensures r.Err? ==> r.error == (if v.Num? then NegativeInteger else InvalidType)
    ensures v.Buffer? || v.Uint8Array? ==> r == Ok(v.bytes)
    ensures v.Null? || v.Undefined? || v == Num(0) ==> r == Ok([])
  {
    match v
    case Buffer(bytes) => Ok(bytes)
    case Str(s) =>
      if IsHexPrefixed(s) then Ok(NodeHexDecode(PadToEven(StripHexPrefix(s))))
      else Ok(Utf8Encode(s))
    case Num(n) => if n == 0 then Ok([]) else IntToBuffer(n)
    case Null => Ok([])
    case Undefined => Ok([])
    case Uint8Array(bytes) => Ok(bytes)
    case Bool(_) => Err(InvalidType)
    case Object => Err(InvalidType)
  }

  /** A non-negative number becomes its minimal big-endian bytes, and
      bufferToInt reads the number back. */
  lemma NumberRoundTrip(n: nat)
    ensures ToBuffer(Num(n)).Ok?
    ensures Minimal(ToBuffer(Num(n)).value)
    ensures BytesToNat(ToBuffer(Num(n)).value) == n
  {
    if n > 0 {
      IntToBufferDenotes(n);
    }
  }

  /** Conversely every minimal byte sequence is toBuffer of bufferToInt of it. */
  lemma MinimalBytesRoundTrip(bytes: seq<Byte>)
    requires Minimal(bytes)
    ensures ToBuffer(Num(BytesToNat(bytes))) == Ok(bytes)
  {
    if |bytes| > 0 {
      IntToBufferOfValue(bytes);
    }
  }

  /** A "0x" string of hex digits gives the bytes its digits spell, read
      after one '0' when their count is odd. */
  lemma HexStringToBuffer(digits: string)
    requires AllHex(digits)
    ensures ToBuffer(Str("0x" + digits)).Ok?
    ensures var bytes := ToBuffer(Str("0x" + digits)).value;
      && |bytes| == (|digits| + 1) / 2
      && BigEndian(bytes) == HexValue(digits)
      && (AllLowerHex(digits) ==> HexBody(bytes) == PadToEven(digits))
  {
    PrefixedString(digits);
    PaddedDecode(digits);
  }

  lemma PaddedDecode(digits: string)
    requires AllHex(digits)
    ensures var bytes := NodeHexDecode(PadToEven(digits));
      && |bytes| == (|digits| + 1) / 2
      && BigEndian(bytes) == HexValue(digits)
      && (AllLowerHex(digits) ==> HexBody(bytes) == PadToEven(digits))
  {
    var padded := PadToEven(digits);
    PadToEvenKeepsValue(digits);
    DecodeLength(padded);
    HexValueOfDecode(padded);
    if AllLowerHex(digits) {
      assert AllLowerHex(padded);
      HexBodyOfDecode(padded);
    }
  }

  lemma PrefixedString(digits: string)
    ensures ToBuffer(Str("0x" + digits)) == Ok(NodeHexDecode(PadToEven(digits)))
  {
    var s := "0x" + digits;
    assert s[..2] == "0x" && s[2..] == digits;
  }

  /** On "0x" hex the padding decoder is exactly toBuffer: both pad an odd
      body with one leading zero nibble. */
  lemma PaddedIsToBuffer(digits: string)
    requires AllHex(digits)
    ensures HexToBytesPadded("0x" + digits) == ToBuffer(Str("0x" + digits))
  {
    PrefixedString(digits);
    assert ("0x" + digits)[..2] == "0x" && ("0x" + digits)[2..] == digits;
  }

  /** "0xabc" decodes to [0x0a, 0xbc] under the padding decoder. */
  lemma PaddedOddExample()
    ensures HexToBytesPadded("0xabc") == Ok([0x0a, 0xbc])
  {
    OddHexExample();
    assert "0x" + "abc" == "0xabc";
    PaddedIsToBuffer("abc");
  }

  /** exports.toHex: the normalized bytes as a "0x" hex string. */
  function ToHexExport(v: Value): (r: Result<string>)
    ensures r.Ok? ==> IsHexPrefixed(r.value) && |r.value| % 2 == 0
    ensures r.Err? <==> ToBuffer(v).Err?
  {
    var bytes :- ToBuffer(v);
    Ok(ToHexString(bytes, true))
  }

  /** Feeding toHex's output back to toBuffer gives the same bytes. */
  lemma ToHexExportRoundTrip(v: Value)
    requires ToHexExport(v).Ok?
    ensures ToBuffer(Str(ToHexExport(v).value)) == ToBuffer(v)
  {
    var bytes := ToBuffer(v).value;
    PrefixedHexBuffer(bytes);
  }

  lemma PrefixedHexBuffer(bytes: seq<Byte>)
    ensures ToBuffer(Str(ToHexString(bytes, true))) == Ok(bytes)
  {
    var s := ToHexString(bytes, true);
    StripToHexString(bytes, true);
    assert PadToEven(HexBody(bytes)) == HexBody(bytes);
    DecodeHexBody(bytes);
  }

  /** Worked case: 255 is one byte. */
  lemma OneByteExample()
    ensures ToBuffer(Num(255)) == Ok([0xff])
  {
    assert BigEndian([0xff]) == 255 by { assert [0xff][..0] == []; }
    IntToBufferOfBigEndian([0xff]);
  }

  /** Worked case: 256 is two bytes. */
  lemma TwoByteExample()
    ensures ToBuffer(Num(256)) == Ok([0x01, 0x00])
  {
    assert BigEndian([0x01, 0x00]) == 256 by {
      assert [0x01, 0x00][..1] == [0x01];
      assert [0x01][..0] == [];
    }
    IntToBufferOfBigEndian([0x01, 0x00]);
  }

  /** Worked case: "0xabc" is read as "0abc"; "0x" is no bytes. */
  lemma OddHexExample()
    ensures ToBuffer(Str("0xabc")) == Ok([0x0a, 0xbc])
    ensures ToBuffer(Str("0x")) == Ok([])
  {
    PrefixedString("abc");
    assert "0x" + "abc" == "0xabc";
    assert PadToEven("abc") == "0abc";
    DecodeStep("0abc");
    assert "0abc"[2..] == "bc";
    DecodeStep("bc");
    assert "bc"[2..] == "";
    assert DigitValue('a') == 10 && DigitValue('b') == 11 && DigitValue('c') == 12;
    assert NodeHexDecode("0abc") == [0x0a] + ([0xbc] + []);
    assert [0x0a] + ([0xbc] + []) == [0x0a, 0xbc];
    assert ToBuffer(Str("0xabc")) == Ok(NodeHexDecode("0abc"));
    PrefixedString("");
    assert "0x" + "" == "0x";
  }
}
